=== FILE: README.md ===
# cses-companion in Dafny

A model of the deterministic core of the cses-companion browser extension.
The extension puts a Monaco code editor on the problem pages of the CSES
problem set. Three scripts cooperate:

- `content/content.js` is the content script. It builds the toolbar (language,
  font size, templates, submit), derives the auto-save key from the URL,
  restores saved code, and turns the editor's answers into a saved text or a
  submission of the site's own form.
- `content/initializer.js` runs in the page. It creates the editor with a
  theme picked by classifying the page's background colour, answers the
  content script's `cses-companion-*` messages, and re-themes the editor when
  the page's theme attributes change.
- `content/submission.js` runs on the site's submit page. It takes a pending
  `codeToSubmit` record from storage, picks the site's language label, puts the
  code into the form's file input, clears the record and submits.

Everything is pure functions over immutable datatypes. A handler returns its
new state and the ordered list of its effects: posted messages, storage writes
and removals, template requests, the attached file, the form submit and error
logs. Browser objects become plain data. The page body is a colour string and
a class list. The editor is a record `{value, language, fontSize, theme}`. A
form is a pair of flags saying whether the language select and the file input
exist.

Modules:

- `Wrappers`: the `Option` type. JavaScript's `undefined`, `null` and failed
  matches become `None`.
- `JsText`: `\d` and `\s`, `includes`, `split`, `trim`, and `parseInt` with no
  radix (white space, sign, `0x`, digit run, NaN).
- `Scan`: leftmost matching.
- `ThemeDetector`: `getWebsiteTheme` and the theme observer's mutation filter.
  The file has a second, identical copy at `content/initializer.js:88-109`;
  one definition models both.
- `Messages`: the message protocol and the `Effect` type.
- `EditorBridge`: the editor record, its start-up options, the `message`
  listener and the observer's reaction.
- `Toolbar`: the content script's rules.
- `Submission`: the submit-page script.
- `Page`: both listeners on one window. It follows a toolbar action through
  the editor's answer to its final effect.

The regular expression `/\d+,\s*\d+,\s*\d+/` is modelled by index spans. A
match at an index is checked stage by stage: the red run, then the gap and
green run, then the gap and blue run. `FirstTriple` takes the leftmost index
that matches. All three digit runs are maximal, so the match is the greedy one
JavaScript returns. The brightness test `(299r + 587g + 114b) / 1000 < 128` is
kept as real division, and it is proved equal to the integer test
`299r + 587g + 114b < 128000`.

The content script posts no language on `response-code`. It packages the code
under the selected language's file name and submits the site's form as is. Only
`content/submission.js` sets the site's language select. So the end-to-end
submit lemma (`Page.SubmitFlow`) says nothing about the site's language
select, because the code does not touch it there.

## Model

| member | source | states |
|---|---|---|
| ThemeDetector.FirstTriple | content/initializer.js:30 | `None` exactly when the pattern occurs at no index; otherwise the result is an occurrence, the greedy one, and no earlier index matches |
| ThemeDetector.MatchAtComplete | content/initializer.js:30 | any occurrence of the pattern at an index is found there, with the same first two runs and blue start and the longest blue run; a greedy occurrence is found exactly |
| ThemeDetector.FirstTripleIsLeftmost | content/initializer.js:30 | an occurrence with no occurrence before it is the match `match` returns |
| ThemeDetector.ChannelsAreParseInt | content/initializer.js:32 | the matched text splits at `,` into exactly three pieces, and `parseInt(piece.trim())` of each is the decimal value of the red, green and blue run |
| ThemeDetector.WebsiteIsDark | content/initializer.js:18-39 | `getWebsiteTheme`: dark when no `r, g, b` triple is found or a dark class is present; light only with a parsed triple and no dark class (the exact brightness test is `WebsiteIsDarkTruthTable`) |
| ThemeDetector.WebsiteIsDarkTruthTable | content/initializer.js:26-38 | dark iff no triple is found, or `299r + 587g + 114b < 128000`, or the class list has `dark`/`dark-theme`; light iff a triple is found, the weighted sum is at least 128000 and there is no dark class |
| ThemeDetector.NoTripleIsDark | content/initializer.js:37-38 | a colour with no digit triple is dark whatever the classes |
| ThemeDetector.ColourChannels | content/initializer.js:30-32 | for every `r, g, b`, a colour `prefix + "r, g, b" + suffix` (digit-free prefix, suffix not continuing the numeral) yields exactly `(r, g, b)` |
| ThemeDetector.RgbVerdict | content/initializer.js:30-35 | `rgb(r, g, b)` is dark iff `299r + 587g + 114b < 128000` or a dark class is present |
| ThemeDetector.RgbaVerdict | content/initializer.js:30-35 | `rgba(r, g, b, a)` is judged on `r, g, b` alone, for any alpha text, fractional ones such as `0.5` included |
| ThemeDetector.TransparentIsDark | content/initializer.js:30-34 | `rgba(0, 0, 0, 0)` is dark whatever the classes, because only the first triple is read |
| ThemeDetector.ThemeExamples | content/initializer.js:33-34 | `rgb(10, 10, 10)` is dark; `rgb(250, 250, 250)` is light without a class and dark with class `dark` |
| ThemeDetector.DeadWhiteCheckIsNotTheVerdict | content/initializer.js:22-23 | the local white-colour check disagrees with the verdict on some inputs, so it cannot be what decides the theme |
| ThemeDetector.ThemeChanged | content/initializer.js:113-125 | the observer re-checks the theme iff some mutation in the batch is an `attributes` change of `class`, `style` or `data-theme` |
| ThemeDetector.ThemeChangedOrderIndependent | content/initializer.js:114-124 | two batches with the same mutations in any order get the same decision |
| ThemeDetector.ThemeChangedAppend | content/initializer.js:114-124 | a concatenated batch fires iff one of its parts fires, so extra mutations never suppress a re-check |
| JsText.ParseIntDecimalPrefix | content/content.js:163 | `parseInt` of a decimal numeral followed by a non-digit suffix is the numeral's value, unless the numeral is a lone `0` and the suffix starts with `x` or `X`, which would make it a hexadecimal prefix |
| JsText.SplitAtSep | content/initializer.js:32 | `split` cuts at the first separator: `a + sep + b` splits into `a` followed by the pieces of `b` |
| JsText.TrimSpacesDigits | content/initializer.js:32 | `trim` of white space followed by digits gives the digits |
| EditorBridge.Initial | content/initializer.js:42-48 | the editor starts with `// Write your code here`, `cpp`, size 16, and theme `vs-dark` when the page is classified dark, `vs` otherwise |
| EditorBridge.Boot | content/initializer.js:14-15 | no editor is created without the container element; otherwise the initial editor is |
| EditorBridge.Handle | content/initializer.js:55-83 | one listener call posts at most one message; unaccepted or unknown messages change nothing; a call that posts leaves the state alone |
| EditorBridge.ForeignIgnored | content/initializer.js:56 | a message from another window, without a type, or whose type lacks the `cses-companion-` prefix changes nothing and posts nothing |
| EditorBridge.UnknownIgnored | content/initializer.js:59-82 | a type that is not one of the eight handled ones changes nothing and posts nothing |
| EditorBridge.OwnPostsIgnored | content/initializer.js:63-77 | each message the bridge posts, delivered back to it, is ignored |
| EditorBridge.SettersFrame | content/initializer.js:59-68 | `set-lang`, `set-font` and `insert-code` each replace exactly their own field (`insert-code` sets the text to exactly `code`) and post nothing |
| EditorBridge.SetLangIdempotent | content/initializer.js:59-60 | a repeated `set-lang L` has no further effect |
| EditorBridge.RequestAnswered | content/initializer.js:63-77 | each of the four `get-code*` requests yields exactly one message of the matching `response-*` type carrying the current text, and leaves the state alone |
| EditorBridge.InsertThenGet | content/initializer.js:63-68 | `insert-code x` followed by `get-code` answers with `x` |
| EditorBridge.UpdateThemeSets | content/initializer.js:78-81 | `update-theme` sets only the theme, to `vs-dark` iff the flag is set |
| EditorBridge.OnMutations | content/initializer.js:125-131 | after a firing batch the theme is `vs-dark` when the page is classified dark, `vs` otherwise; any other batch leaves the editor unchanged; text, language and size are never touched |
| EditorBridge.RunValueIsLastInserted | content/initializer.js:67-68 | after any sequence of messages the editor text is the code of the last accepted `insert-code`, or the earlier text if there was none |
| Toolbar.LanguageTable | content/content.js:64-68 | the table has exactly `cpp`, `java` and `python`; each Monaco id equals its key; the file names are `solution.cpp`, `Solution.java` and `solution.py` |
| Toolbar.SelectValue | content/content.js:74-79 | assigning a value that is one of the options selects exactly that value; any other value reads back `""` |
| Toolbar.LoadPrefs | content/content.js:73-85 | stored preferences restore the selectors; the templates are requested first; `set-lang` and `set-font` (with the `parseInt` of the size) are posted only when the language is in the table, because the lookup throws otherwise |
| Toolbar.LoadPrefsDefaults | content/content.js:83-90 | with nothing stored the editor is sent `cpp` and 16 |
| Toolbar.ProblemId | content/content.js:121 | the id is the digit run of a `task/<digits>` occurrence with no occurrence to its left; `None` iff there is none, where the source throws |
| Toolbar.SavedCodeKey | content/content.js:121-122 | the key is `savedCode-` followed by the problem id, and exists iff the id does |
| Toolbar.SavedCodeKeyOfTaskUrl | content/content.js:121-122 | a URL `p + "task/" + id + rest` whose first match is at `p`'s end gives the key `savedCode-<id>` |
| Toolbar.NoTaskNoKey | content/content.js:121 | a URL without `task/` has no key |
| Toolbar.UpdateTemplateSelector | content/content.js:136-142 | the options are the placeholder `Select a template` with value `""`, then one option per template in input order, named by the template's name and valued by its code |
| Toolbar.TemplateChoicesRoundTrip | content/content.js:138-141 | the templates can be read back, in order, from the options after the placeholder |
| Toolbar.OnTemplates | content/content.js:146-149 | the options are rebuilt iff the response carries a `templates` array, even an empty one |
| Toolbar.OnTemplateChange | content/content.js:167-171 | choosing an option posts `insert-code` with its value iff the value is non-empty |
| Toolbar.ChooseTemplate | content/content.js:167-171 | on rebuilt options the placeholder and empty-code templates do nothing, and any other template inserts exactly its code |
| Toolbar.OnLanguageChange | content/content.js:154-159 | a language change posts `set-lang` with its Monaco id, requests that language's templates and stores the key, in that order |
| Toolbar.OnFontChange | content/content.js:161-165 | a font change posts `set-font` with the `parseInt` of the size text and stores the text itself |
| Toolbar.FontSizesInPixels | content/content.js:88 | the five offered sizes reach the editor as 12, 14, 16, 18 and 20 |
| Toolbar.OnSubmitClick | content/content.js:173-175 | the submit button posts one `get-code` request |
| Toolbar.AutoSaveTick | content/content.js:132-134 | each auto-save tick posts one `get-code-for-save` request |
| Toolbar.RestoreSaved | content/content.js:125-129 | stored code is restored with `insert-code` iff it is present and non-empty |
| Toolbar.Setup | content/content.js:116-122 | the script keeps running past start-up iff the URL gives a save key; it starts from `cpp`, `16px` and the placeholder option |
| Toolbar.SubmitEffects | content/content.js:186-194 | a file with the selected language's file name and the code is attached iff the form has a file input; the form is submitted last in either case |
| Toolbar.HandleOuter | content/content.js:178-198 | messages from other windows and all types except the two code responses cause nothing; a `response-code` causes nothing without the form or with a selected language outside the table; the listener never posts |
| Toolbar.SaveResponseStores | content/content.js:195-197 | `response-code-for-save` writes exactly `savedCode-<id> := code` |
| Toolbar.CodeResponseSubmits | content/content.js:183-194 | `response-code` without a form does nothing; with one it attaches `(filename, code)` when there is a file input, and submits even when there is none |
| Toolbar.CodeResponseActsIff | content/content.js:183-194 | a `response-code` has an effect iff the form exists and the selected language is in the table; the form check returns before the lookup, which throws for any other language |
| Submission.CsesLanguage | content/submission.js:8-13 | `cpp` maps to `C++`, `java` to `Java`, `python` to `Python 3`; nothing else has a label |
| Submission.LabelEffects | content/submission.js:22-25 | the site's language select is set iff it exists and the language has a label |
| Submission.Run | content/submission.js:2-19 | nothing happens unless the URL contains `/submit`, the runtime is alive and a pending record is stored; a missing form only logs an error |
| Submission.SuccessSequence | content/submission.js:29-40 | with a form and a file input: the label if any, then the file `(filename, code)`, then removal of `codeToSubmit`, then submit |
| Submission.MissingFileInputKeepsSlot | content/submission.js:32-43 | without a file input an error is logged, and there is no submit and no removal |
| Submission.SubmitIff | content/submission.js:2-40 | the form is submitted iff the guards hold and the form with a file input is found; removal happens under exactly the same conditions |
| Submission.SubmitAfterRemoval | content/submission.js:37-40 | a submit is always the last effect and comes right after the removal of `codeToSubmit`, so there is at most one |
| Submission.ConsumedOnce | content/submission.js:3-4 | once a record has been submitted it is gone, so running the script again submits nothing |
| Submission.FailureRetains | content/submission.js:15-19 | when the form or its file input is missing the pending record stays in storage |
| Page.Deliver | content/initializer.js:55-83 | a message reaches both listeners; the content script's state is unchanged; at most one answer is posted, and the content script posts nothing |
| Page.AnswersSettle | content/initializer.js:63-77 | any answer the bridge posts, once delivered, changes nothing and is answered by nothing, so exchanges end after two deliveries |
| Page.SubmitFlow | content/content.js:173-194 | a submit click gets the editor's current text back in a `response-code`, which is packaged and submitted when the form exists and does nothing otherwise |
| Page.SubmitFlowFile | content/content.js:186-194 | with form and file input the submitted file is the selected language's file name with the editor's text |
| Page.AutoSaveFlow | content/content.js:195-197 | an auto-save tick ends with exactly the editor's text stored under the save key, and storage otherwise unchanged |
| Page.SaveThenRestore | content/content.js:125-129 | a saved text is put back into a newly started editor when it is non-empty; an empty one leaves the start-up text |
| Page.RestoreInto | content/content.js:125-129 | for any editor, the restore callback's posts replace its text with a non-empty stored text, and an empty one leaves the text as it was |
| Page.LanguageChangeFlow | content/content.js:154-156 | a language change sets the editor's language to the chosen key and nothing else |
| Page.FontChangeFlow | content/content.js:161-163 | a font change sets the editor's size to the `parseInt` of the chosen size and nothing else |
| Page.LoadPrefsFlow | content/content.js:73-85 | once the preferences callback's two posts are delivered, the editor's language is the restored language and its size the `parseInt` of the restored size; nothing is answered and nothing else changes |
| Page.DeliverToBridge | content/initializer.js:11-13 | before the deferred start-up installs the bridge's listener a message leaves the bridge without an editor; afterwards a message that is not a command leaves the editor as it was |
| Page.EarlyRestoreLost | content/content.js:125-134 | a restore posted before the bridge's listener exists reaches nothing; the editor then boots with its start-up text and the next auto-save stores that text under the save key |

## Left out

- DOM construction and styling (`content/content.js:2-119`) are left out. This covers the duplicate-injection guard, the CSS, the element tree, where the toolbar is inserted and hiding the site's form. Only the facts the rules read are kept: the selectors' values, the template options, and whether the form and its file input exist.
- The script-loading chain is left out (`content/content.js:200-219`, and `content/initializer.js:3-11` with the `vsUrl` check and `require`). It is loader plumbing with no decision in it.
- Monaco internals are left out: `editor.create`, `setModelLanguage`, `updateOptions` and `setTheme`. The editor is a record whose text is the last text set. Line-ending normalisation and Monaco's handling of a NaN font size are not modelled.
- Timing is left out: the 5-second auto-save interval, the 0 ms and 100 ms timeouts, and the asynchronous `chrome.storage` and `chrome.runtime` callbacks. Each callback becomes one function call, and `Page.Deliver` delivers one message at a time. Interleavings between the page and the content script are concurrency and are out of scope.
- `MutationObserver` wiring is left out (`content/initializer.js:136-144`). This covers observing both `<body>` and `<html>` with the attribute filter. The observer also exists when the editor container is missing, because it is set up outside the deferred start-up. Only its decision and its effect on an existing editor are modelled.
- `console.log` and the `console.error` calls of `content/initializer.js` and `content/content.js` are left out. `content/submission.js` has three `console.error` calls. The missing form (line 17) and the missing file input (line 42) are kept as `LogError` effects. The third is in the `try`/`catch` around building the file (lines 28-46). It only logs an exception thrown by `File` or `DataTransfer`; since those are not modelled, the `catch` is left out.
- The `get-templates` responder and the template store are left out. They live in files this model does not include. The runtime's answer is an input: `None` when there is no response or it has no `templates` field.
- `options/options.js` is left out. It is presentation over that same unseen template store.
- Object-table lookups with prototype-inherited keys are left out, for example `csesLanguages['constructor']`. Dafny maps hold only their own keys. In `content/content.js` a select value can never be such a key.
- Numbers are `NaN` or an exact integer. Negative zero is folded into zero. Double-precision rounding of numerals above 2^53 (in `parseInt` and in the brightness sum) is not modelled.
- Message payloads are simplified. Every field a handler reads is present, with a default when the message does not carry it. A `null` or `undefined` payload makes both listeners throw, and it is not modelled. Any other non-object payload, such as a string or a number, has no `type` property. Both listeners then ignore it, as a `Data` with `kind == None` models. A `type` that is present but not a string makes the bridge's `startsWith` call throw (`content/initializer.js:56`). The content script only compares it (`content/content.js:183`), so it ignores that payload. The throw in the bridge is not modelled. Truthiness of `isDarkTheme` is reduced to a boolean. `new File([undefined])` would give the text `undefined`, but a payload here always carries a string.
- The file's MIME type, `DataTransfer` and the `form.submit()` navigation are left out. A file is the pair `(name, content)` and a submit is the `Submit` effect.
- The bridge answers `get-code-for-run` and `get-code-for-submit`, but the content script never posts them (the Run button is disabled) and ignores their answers. They are modelled only on the bridge side.
- Page.SaveThenRestore: assumes the restore is delivered after the bridge's listener exists. The restore (`content/content.js:125-129`) comes from a storage callback registered at start-up. The bridge installs its listener only after the loading chain (`content/content.js:200-219`), `require` and a 0 ms timeout (`content/initializer.js:11-13`, 55). A restore that arrives earlier is lost, and the next auto-save (`content/content.js:132-134`) then overwrites the saved code with the start-up text. `Page.EarlyRestoreLost` states that case. The model does not decide which order happens.
- Toolbar.LoadPrefs: its `set-lang` and `set-font` posts (`content/content.js:83-84`) race the bridge's listener in the same way. Posted early, they are lost and the editor keeps `cpp` and 16 while the selectors show the stored values. `Page.LoadPrefsFlow` covers only delivery after start-up.
- A URL without a problem id makes the content script throw before it installs its listeners. `Toolbar.Setup` returns `None` there. The stored-preferences callback is registered earlier and still runs; `Toolbar.LoadPrefs` models it on its own.

=== FILE: editor_bridge.dfy ===
/** The page-side editor bridge of content/initializer.js: the Monaco editor
    seen as an abstract record, its initial options, the `message` listener
    that answers the content script, and the theme observer's reaction to
    attribute mutations. */
module EditorBridge {
  import opened Wrappers
  import opened JsText
  import opened Messages
  import ThemeDetector

  /** What the bridge can observe of the editor: `getValue()`, the model
      language, the font size option and the global theme. */
  datatype EditorState = EditorState(
    value: string,
    language: string,
    fontSize: Number,
    theme: string)

  /** The two Monaco themes the bridge switches between. */
  function ThemeName(dark: bool): (t: string)
    ensures t == "vs-dark" || t == "vs"
    ensures t == "vs-dark" <==> dark
  {
    if dark then "vs-dark" else "vs"
  }

  /** The options `monaco.editor.create` receives. */
  function Initial(page: ThemeDetector.Body): (s: EditorState)
    ensures s.value == "// Write your code here"
    ensures s.language == "cpp" && s.fontSize == Int(16)
    ensures s.theme == "vs-dark" <==> ThemeDetector.WebsiteIsDark(page)
    ensures s.theme == "vs" <==> !ThemeDetector.WebsiteIsDark(page)
  {
    EditorState("// Write your code here", "cpp", Int(16), ThemeName(ThemeDetector.WebsiteIsDark(page)))
  }

  /** The deferred start-up: without the `cses-editor-container` element no
      editor is created and no message listener is installed. */
  function Boot(containerPresent: bool, page: ThemeDetector.Body): (r: Option<EditorState>)
    ensures r.Some? <==> containerPresent
    ensures r.Some? ==> r.value == Initial(page)
  {
    if containerPresent then Some(Initial(page)) else None
  }

  /** The listener's guard: the event comes from this window and its type is
      present and starts with the protocol prefix. */
  predicate Accepted(e: Event) {
    e.sameWindow && e.data.kind.Some? && Prefix <= e.data.kind.value
  }

  /** The four code requests and the response type each one is answered with. */
  function ResponseFor(t: string): (r: Option<string>)
    ensures r.Some? <==> t in {GetCode, GetCodeForSave, GetCodeForRun, GetCodeForSubmit}
  {
    if t == GetCode then Some(ResponseCode)
    else if t == GetCodeForSave then Some(ResponseCodeForSave)
    else if t == GetCodeForRun then Some(ResponseCodeForRun)
    else if t == GetCodeForSubmit then Some(ResponseCodeForSubmit)
    else None
  }

  /** The message types the listener acts on. */
  predicate IsCommand(t: string) {
    t in {SetLang, SetFont, InsertCode, UpdateTheme} || ResponseFor(t).Some?
  }

  /** One listener invocation: the new editor state and the messages posted. */
  datatype Step = Step(state: EditorState, posted: seq<Data>)

  function Handle(s: EditorState, e: Event): (r: Step)
    ensures |r.posted| <= 1
    ensures !Accepted(e) || !IsCommand(e.data.kind.value) ==> r == Step(s, [])
    ensures r.posted != [] ==> r.state == s
  {
    if !Accepted(e) then Step(s, [])
    else
      var t := e.data.kind.value;
      if t == SetLang then Step(s.(language := e.data.language), [])
      else if t == SetFont then Step(s.(fontSize := e.data.fontSize), [])
      else if t == InsertCode then Step(s.(value := e.data.code), [])
      else if t == UpdateTheme then Step(s.(theme := ThemeName(e.data.isDarkTheme)), [])
      else match ResponseFor(t)
        case Some(answer) => Step(s, [WithCode(answer, s.value)])
        case None => Step(s, [])
  }

  /** Messages from another window, without a type, or with a type outside
      the protocol change nothing and post nothing. */
  lemma ForeignIgnored(s: EditorState, e: Event)
    requires !e.sameWindow || e.data.kind.None? || !(Prefix <= e.data.kind.value)
    ensures Handle(s, e) == Step(s, [])
  {
  }

  /** So are prefixed types the listener does not know, among them the
      bridge's own `response-*` messages. */
  lemma UnknownIgnored(s: EditorState, e: Event)
    requires e.data.kind.Some? && !IsCommand(e.data.kind.value)
    ensures Handle(s, e) == Step(s, [])
  {
  }

  lemma ResponsesAreNotCommands()
    ensures !IsCommand(ResponseCode) && !IsCommand(ResponseCodeForSave)
    ensures !IsCommand(ResponseCodeForRun) && !IsCommand(ResponseCodeForSubmit)
  {
  }

  /** Whatever the bridge posts, delivered back to its own listener, is
      ignored: the bridge never answers itself. */
  lemma OwnPostsIgnored(s: EditorState, e: Event, t: EditorState)
    ensures forall d :: d in Handle(s, e).posted ==> Handle(t, Event(true, d)) == Step(t, [])
  {
    var r := Handle(s, e);
    if r.posted != [] {
      var t0 := e.data.kind.value;
      assert r.posted == [WithCode(ResponseFor(t0).value, s.value)];
      ResponsesAreNotCommands();
    }
  }

  /** `set-lang`, `set-font` and `insert-code` each replace exactly one field
      and post nothing. */
  lemma SettersFrame(s: EditorState, d: Data)
    ensures d.kind == Some(SetLang) ==>
      Handle(s, Event(true, d)) == Step(s.(language := d.language), [])
    ensures d.kind == Some(SetFont) ==>
      Handle(s, Event(true, d)) == Step(s.(fontSize := d.fontSize), [])
    ensures d.kind == Some(InsertCode) ==>
      Handle(s, Event(true, d)) == Step(s.(value := d.code), [])
  {
  }

  /** Replaying a `set-lang` message has no further effect. */
  lemma SetLangIdempotent(s: EditorState, language: string)
    ensures var once := Handle(s, Event(true, SetLangMsg(language))).state;
      Handle(once, Event(true, SetLangMsg(language))) == Step(once, [])
  {
  }

  /** Each code request is answered by exactly one message of the matching
      response type carrying the editor's current value, and the state is
      left alone. */
  lemma RequestAnswered(s: EditorState, t: string)
    requires ResponseFor(t).Some?
    ensures Handle(s, Event(true, Bare(t))) == Step(s, [WithCode(ResponseFor(t).value, s.value)])
  {
  }

  /** Inserting `x` and then asking for the code answers with `x`. */
  lemma InsertThenGet(s: EditorState, x: string)
    ensures var s1 := Handle(s, Event(true, WithCode(InsertCode, x))).state;
      Handle(s1, Event(true, Bare(GetCode))).posted == [WithCode(ResponseCode, x)]
  {
  }

  /** `update-theme` selects `vs-dark` exactly when its flag is set. */
  lemma UpdateThemeSets(s: EditorState, dark: bool)
    ensures var r := Handle(s, Event(true, UpdateThemeMsg(dark)));
      r.posted == [] && r.state == s.(theme := ThemeName(dark))
      && (r.state.theme == "vs-dark" <==> dark)
  {
  }

  /** The theme observer: after a batch of mutations that touches a theme
      attribute, the editor theme follows a fresh classification of the page;
      any other batch leaves the editor alone. */
  function OnMutations(s: EditorState, ms: seq<ThemeDetector.Mutation>, page: ThemeDetector.Body): (r: EditorState)
    ensures r.value == s.value && r.language == s.language && r.fontSize == s.fontSize
    ensures ThemeDetector.ThemeChanged(ms) ==>
      (r.theme == "vs-dark" <==> ThemeDetector.WebsiteIsDark(page))
    ensures ThemeDetector.ThemeChanged(ms) ==>
      (r.theme == "vs" <==> !ThemeDetector.WebsiteIsDark(page))
    ensures !ThemeDetector.ThemeChanged(ms) ==> r == s
  {
    if ThemeDetector.ThemeChanged(ms) then s.(theme := ThemeName(ThemeDetector.WebsiteIsDark(page)))
    else s
  }

  /** The listener applied to a sequence of events, collecting what it posts. */
  function Run(s: EditorState, es: seq<Event>): (r: Step)
    ensures |r.posted| <= |es|
    decreases |es|
  {
    if |es| == 0 then Step(s, [])
    else
      var first := Handle(s, es[0]);
      var rest := Run(first.state, es[1..]);
      Step(rest.state, first.posted + rest.posted)
  }

  /** Whether event `e` is an accepted `insert-code`. */
  predicate IsInsert(e: Event) {
    Accepted(e) && e.data.kind.value == InsertCode
  }

  /** Reference definition of the editor text after a run: the code of the
      last accepted `insert-code`, or the text before the run if there is
      none. */
  function LastInserted(before: string, es: seq<Event>): (v: string)
    ensures (forall i :: 0 <= i < |es| ==> !IsInsert(es[i])) ==> v == before
    decreases |es|
  {
    if |es| == 0 then before
    else if IsInsert(es[|es| - 1]) then es[|es| - 1].data.code
    else LastInserted(before, es[..|es| - 1])
  }

  lemma {:induction false} RunAppend(s: EditorState, a: seq<Event>, b: seq<Event>)
    ensures Run(s, a + b).state == Run(Run(s, a).state, b).state
    decreases |a|
  {
    if |a| == 0 {
      assert a + b == b;
    } else {
      assert (a + b)[1..] == a[1..] + b;
      RunAppend(Handle(s, a[0]).state, a[1..], b);
    }
  }

  /** Only `insert-code` touches the text: after any run of events the
      editor holds the code of the last accepted `insert-code`. */
  lemma {:induction false} RunValueIsLastInserted(s: EditorState, es: seq<Event>)
    ensures Run(s, es).state.value == LastInserted(s.value, es)
    decreases |es|
  {
    if |es| > 0 {
      var init, last := es[..|es| - 1], es[|es| - 1];
      assert es == init + [last];
      RunAppend(s, init, [last]);
      RunValueIsLastInserted(s, init);
    }
  }
}

=== FILE: js_text.dfy ===
/** Character classes and number parsing with the semantics of the JavaScript
    built-ins the extension relies on: the regular-expression classes `\d` and
    `\s`, `String.prototype.includes`, `split` and `trim`, and the global
    `parseInt` with no radix. */
module JsText {

  /** A JavaScript number as far as the extension can observe it: either NaN or
      an integer. (Negative zero is folded into zero.) */
  datatype Number = NaN | Int(n: int)

  /** `\d`: ASCII decimal digits only. */
  predicate IsDigit(c: char) {
    '0' <= c <= '9'
  }

  predicate IsHexDigit(c: char) {
    IsDigit(c) || 'a' <= c <= 'f' || 'A' <= c <= 'F'
  }

  /** A digit of radix 16 when `hex`, of radix 10 otherwise. */
  predicate IsRadixDigit(c: char, hex: bool) {
    if hex then IsHexDigit(c) else IsDigit(c)
  }

  /** `\s` and the characters `trim` removes: ECMAScript WhiteSpace (TAB, VT,
      FF, ZWNBSP and the space separators) and LineTerminator (LF, CR, LS, PS). */
  predicate IsSpace(c: char) {
    || c == '\t' || c == '\n' || c == '\U{B}' || c == '\U{C}' || c == '\r'
    || c == ' ' || c == '\U{A0}' || c == '\U{1680}'
    || ('\U{2000}' <= c <= '\U{200A}')
    || c == '\U{2028}' || c == '\U{2029}' || c == '\U{202F}' || c == '\U{205F}'
    || c == '\U{3000}' || c == '\U{FEFF}'
  }

  /** No digit is white space. */
  lemma DigitNotSpace(c: char)
    requires IsDigit(c)
    ensures !IsSpace(c)
  {
  }

  predicate AllDigits(d: string) {
    forall k :: 0 <= k < |d| ==> IsDigit(d[k])
  }

  predicate AllSpaces(d: string) {
    forall k :: 0 <= k < |d| ==> IsSpace(d[k])
  }

  predicate OccursAt(s: string, i: nat, sub: string) {
    i + |sub| <= |s| && s[i..i + |sub|] == sub
  }

  /** `String.prototype.includes`. */
  predicate Includes(s: string, sub: string) {
    exists i: nat | i <= |s| :: OccursAt(s, i, sub)
  }

  /** Length of the longest run of characters satisfying `p` that starts at
      index `i` of `s` (what a greedy `p+`/`p*` consumes there). */
  function SpanWhile(s: string, i: nat, p: char -> bool): (n: nat)
    requires i <= |s|
    ensures i + n <= |s|
    ensures forall k :: i <= k < i + n ==> p(s[k])
    ensures i + n == |s| || !p(s[i + n])
    decreases |s| - i
  {
    if i < |s| && p(s[i]) then 1 + SpanWhile(s, i + 1, p) else 0
  }

  /** The maximal run is unique: any length that is a run of `p` and is not
      followed by a `p` character is the one `SpanWhile` finds. */
  lemma SpanWhileUnique(s: string, i: nat, p: char -> bool, k: nat)
    requires i + k <= |s|
    requires forall j :: i <= j < i + k ==> p(s[j])
    requires i + k == |s| || !p(s[i + k])
    ensures SpanWhile(s, i, p) == k
  {
  }

  function DigitValue(c: char): (v: nat)
    requires IsHexDigit(c)
    ensures v < 16
    ensures IsDigit(c) ==> v < 10
  {
    if IsDigit(c) then (c as int) - ('0' as int)
    else if 'a' <= c <= 'f' then (c as int) - ('a' as int) + 10
    else (c as int) - ('A' as int) + 10
  }

  /** The value of a digit string in radix 16 (`hex`) or 10. */
  function ValueIn(d: string, hex: bool): nat
    requires forall k :: 0 <= k < |d| ==> IsRadixDigit(d[k], hex)
  {
    if |d| == 0 then 0
    else
      assert IsRadixDigit(d[|d| - 1], hex);
      ValueIn(d[..|d| - 1], hex) * (if hex then 16 else 10) + DigitValue(d[|d| - 1])
  }

  /** Decimal value of a string of `\d` characters. */
  function Decimal(d: string): nat
    requires AllDigits(d)
  {
    ValueIn(d, false)
  }

  /** The decimal numeral of `n`, without leading zeros (JavaScript's
      `String(n)` for a non-negative integer). */
  function NatToDigits(n: nat): (d: string)
    ensures |d| > 0
    ensures AllDigits(d)
    ensures Decimal(d) == n
    ensures |d| > 1 ==> d[0] != '0'
  {
    var c := (('0' as int) + n % 10) as char;
    var last := [c];
    assert DigitValue(c) == n % 10;
    if n < 10 then
      assert last[..0] == [];
      assert Decimal(last) == ValueIn(last[..0], false) * 10 + DigitValue(c);
      last
    else
      var prefix := NatToDigits(n / 10);
      assert (prefix + last)[..|prefix + last| - 1] == prefix;
      prefix + last
  }

  /** JavaScript `parseInt(s)` with no radix argument: skip leading white
      space, take an optional sign, switch to radix 16 after a `0x`/`0X`
      prefix, then read the longest run of digits; NaN when that run is
      empty. */
  function ParseInt(s: string): Number {
    ParseSigned(s[SpanWhile(s, 0, IsSpace)..])
  }

  function ParseSigned(t: string): Number {
    if |t| > 0 && t[0] == '-' then Negate(ParseUnsigned(t[1..]))
    else if |t| > 0 && t[0] == '+' then ParseUnsigned(t[1..])
    else ParseUnsigned(t)
  }

  function Negate(x: Number): Number {
    match x
    case NaN => NaN
    case Int(n) => Int(-n)
  }

  function ParseUnsigned(u: string): Number {
    if |u| >= 2 && u[0] == '0' && (u[1] == 'x' || u[1] == 'X') then ParseDigits(u[2..], true)
    else ParseDigits(u, false)
  }

  /** The value of the longest run of radix digits at the start of `w`. */
  function ParseDigits(w: string, hex: bool): Number {
    var n := if hex then SpanWhile(w, 0, IsHexDigit) else SpanWhile(w, 0, IsDigit);
    if n == 0 then NaN else Int(ValueIn(w[..n], hex))
  }

  /** `parseInt` of a decimal numeral followed by a non-digit suffix reads
      exactly the numeral, as long as the suffix cannot turn a lone `0` into
      a hexadecimal prefix. This is how `parseInt('16px')` yields 16 and how
      each `\d+` piece of a colour is read. */
  lemma ParseIntDecimalPrefix(d: string, rest: string)
    requires |d| > 0 && AllDigits(d)
    requires rest == [] || (!IsDigit(rest[0]) && !(d == "0" && (rest[0] == 'x' || rest[0] == 'X')))
    ensures ParseInt(d + rest) == Int(Decimal(d))
  {
    var s := d + rest;
    SpanWhileUnique(s, 0, IsSpace, 0);
    assert s[0..] == s;
    assert ParseInt(s) == ParseUnsigned(s);
    assert !(|s| >= 2 && s[0] == '0' && (s[1] == 'x' || s[1] == 'X')) by {
      if |d| >= 2 {
        assert s[1] == d[1];
      } else if |s| >= 2 && s[0] == '0' {
        assert d == [s[0]];
        assert s[1] == rest[0];
      }
    }
    assert ParseUnsigned(s) == ParseDigits(s, false);
    SpanWhileUnique(s, 0, IsDigit, |d|);
    assert s[..|d|] == d;
  }

  /** `String.prototype.split` with a one-character separator: the pieces
      between occurrences of `sep`, in order; never empty. */
  function Split(t: string, sep: char): (parts: seq<string>)
    ensures |parts| > 0
  {
    if |t| == 0 then [""]
    else
      var rest := Split(t[1..], sep);
      if t[0] == sep then [""] + rest else [[t[0]] + rest[0]] + rest[1..]
  }

  /** A text without the separator is a single piece. */
  lemma {:induction false} SplitNoSep(t: string, sep: char)
    requires forall k :: 0 <= k < |t| ==> t[k] != sep
    ensures Split(t, sep) == [t]
  {
    if |t| > 0 {
      SplitNoSep(t[1..], sep);
      assert [t[0]] + t[1..] == t;
    }
  }

  /** Splitting at the first separator. */
  lemma {:induction false} SplitAtSep(a: string, sep: char, b: string)
    requires forall k :: 0 <= k < |a| ==> a[k] != sep
    ensures Split(a + [sep] + b, sep) == [a] + Split(b, sep)
  {
    if |a| == 0 {
      assert a + [sep] + b == [sep] + b;
      assert ([sep] + b)[1..] == b;
    } else {
      assert (a + [sep] + b)[1..] == a[1..] + [sep] + b;
      SplitAtSep(a[1..], sep, b);
      assert [a[0]] + a[1..] == a;
    }
  }

  /** `String.prototype.trim`: drop leading and trailing white space. */
  function Trim(x: string): (y: string)
    ensures |y| <= |x|
  {
    TrimEnd(TrimStart(x))
  }

  function TrimStart(x: string): (y: string)
    ensures |y| <= |x|
    ensures |y| > 0 ==> !IsSpace(y[0])
  {
    if |x| > 0 && IsSpace(x[0]) then TrimStart(x[1..]) else x
  }

  function TrimEnd(x: string): (y: string)
    ensures |y| <= |x|
  {
    if |x| > 0 && IsSpace(x[|x| - 1]) then TrimEnd(x[..|x| - 1]) else x
  }

  /** White space followed by a digit string trims to the digit string. */
  lemma {:induction false} TrimSpacesDigits(sp: string, d: string)
    requires AllSpaces(sp) && |d| > 0 && AllDigits(d)
    ensures Trim(sp + d) == d
    decreases |sp|
  {
    if |sp| == 0 {
      assert sp + d == d;
      assert !IsSpace(d[0]) && !IsSpace(d[|d| - 1]);
    } else {
      assert (sp + d)[1..] == sp[1..] + d;
      TrimSpacesDigits(sp[1..], d);
    }
  }
}

=== FILE: messages.dfy ===
/** The `window.postMessage` protocol between the content script
    (content/content.js) and the page-side editor bridge
    (content/initializer.js), and the effects the two scripts have on the
    outside world. */
module Messages {
  import opened Wrappers
  import opened JsText

  /** Every message type of the protocol starts with this prefix. */
  const Prefix := "cses-companion-"

  const SetLang := "cses-companion-set-lang"
  const SetFont := "cses-companion-set-font"
  const GetCode := "cses-companion-get-code"
  const InsertCode := "cses-companion-insert-code"
  const GetCodeForSave := "cses-companion-get-code-for-save"
  const GetCodeForRun := "cses-companion-get-code-for-run"
  const GetCodeForSubmit := "cses-companion-get-code-for-submit"
  const UpdateTheme := "cses-companion-update-theme"
  const ResponseCode := "cses-companion-response-code"
  const ResponseCodeForSave := "cses-companion-response-code-for-save"
  const ResponseCodeForRun := "cses-companion-response-code-for-run"
  const ResponseCodeForSubmit := "cses-companion-response-code-for-submit"

  /** The payload `event.data`. `kind` is the JavaScript `type` field (absent
      when `None`); the other fields are read only for the types that carry
      them, and a message that does not carry one holds the default here. */
  datatype Data = Data(
    kind: Option<string>,
    language: string,
    fontSize: Number,
    code: string,
    isDarkTheme: bool)

  /** A `message` event: whether `event.source` is the receiving window
      itself, and the payload. */
  datatype Event = Event(sameWindow: bool, data: Data)

  /** A message of type `t` carrying no field besides the type. */
  function Bare(t: string): (d: Data)
    ensures d.kind == Some(t) && d.code == ""
  {
    Data(Some(t), "", NaN, "", false)
  }

  function WithCode(t: string, code: string): (d: Data)
    ensures d.kind == Some(t) && d.code == code
  {
    Data(Some(t), "", NaN, code, false)
  }

  function SetLangMsg(language: string): (d: Data)
    ensures d.kind == Some(SetLang) && d.language == language
  {
    Data(Some(SetLang), language, NaN, "", false)
  }

  function SetFontMsg(size: Number): (d: Data)
    ensures d.kind == Some(SetFont) && d.fontSize == size
  {
    Data(Some(SetFont), "", size, "", false)
  }

  function UpdateThemeMsg(dark: bool): (d: Data)
    ensures d.kind == Some(UpdateTheme) && d.isDarkTheme == dark
  {
    Data(Some(UpdateTheme), "", NaN, "", dark)
  }

  /** A text file handed to the site's upload field: `new File([content],
      name)`. */
  datatype File = File(name: string, content: string)

  /** What a handler does besides changing its own state, in order. */
  datatype Effect =
    | Post(msg: Data)                      // window.postMessage(msg, '*')
    | SetItem(key: string, value: string)  // chrome.storage.local.set
    | RemoveItem(key: string)              // chrome.storage.local.remove
    | RequestTemplates(language: string)   // runtime message `get-templates`
    | SetLanguageLabel(caption: string)    // the submit form's language select
    | AttachFile(file: File)               // fileInput.files = [file]
    | Submit                               // form.submit()
    | LogError(text: string)               // console.error
}

=== FILE: page.dfy ===
/** The two scripts together on a problem page: every message one of them
    posts reaches both `message` listeners of the window, the editor bridge's
    and the content script's. This module follows the request/answer round
    trips from a toolbar action to its final effect. */
module Page {
  import opened Wrappers
  import opened JsText
  import opened Messages
  import E = EditorBridge
  import T = Toolbar
  import ThemeDetector

  /** The editor and the content script's state. */
  datatype World = World(editor: E.EditorState, page: T.ContentState)

  /** What delivering one message does: the new world, what the bridge
      posts in answer and the content script's effects. */
  datatype Outcome = Outcome(world: World, posted: seq<Data>, effects: seq<Effect>)

  function Deliver(w: World, d: Data): (o: Outcome)
    ensures o.world.page == w.page
    ensures |o.posted| <= 1
    ensures forall x :: x in o.effects ==> !x.Post?
  {
    var inner := E.Handle(w.editor, Event(true, d));
    Outcome(World(inner.state, w.page), inner.posted, T.HandleOuter(w.page, Event(true, d)))
  }

  /** Answers do not cascade: whatever is posted in answer to a message,
      once delivered, changes no state and posts nothing further. */
  lemma AnswersSettle(w: World, d: Data, w': World)
    ensures forall a :: a in Deliver(w, d).posted ==>
      Deliver(w', a).world == w' && Deliver(w', a).posted == []
  {
    E.OwnPostsIgnored(w.editor, Event(true, d), w'.editor);
  }

  /** The submit button end to end: the bridge answers the `get-code`
      request with the editor's text, and the content script packages
      exactly that text under the selected language's file name and submits
      (nothing at all without the site's form). */
  lemma SubmitFlow(w: World)
    requires w.page.sel.language in T.Languages
    ensures var o1 := Deliver(w, T.OnSubmitClick()[0].msg);
      && o1.world == w && o1.effects == []
      && o1.posted == [WithCode(ResponseCode, w.editor.value)]
      && var o2 := Deliver(o1.world, o1.posted[0]);
      && o2.world == w && o2.posted == []
      && (w.page.hasForm ==> o2.effects == T.SubmitEffects(w.page, w.editor.value))
      && (!w.page.hasForm ==> o2.effects == [])
  {
    E.RequestAnswered(w.editor, GetCode);
    E.ResponsesAreNotCommands();
  }

  /** With a form and a file input the submitted file is
      `(filename of the selected language, editor text)`. */
  lemma SubmitFlowFile(w: World)
    requires w.page.sel.language in T.Languages && w.page.hasForm && w.page.hasFileInput
    ensures var o1 := Deliver(w, T.OnSubmitClick()[0].msg);
      Deliver(o1.world, o1.posted[0]).effects ==
        [AttachFile(File(T.Languages[w.page.sel.language].filename, w.editor.value)), Submit]
  {
    SubmitFlow(w);
  }

  /** Storage after a list of effects: `SetItem` writes, `RemoveItem`
      deletes, everything else leaves it alone. */
  function Store(storage: map<string, string>, effects: seq<Effect>): (r: map<string, string>)
    ensures forall k :: (forall x :: x in effects ==> !(x.SetItem? && x.key == k) && !(x.RemoveItem? && x.key == k)) ==>
      (k in r <==> k in storage) && (k in storage ==> r[k] == storage[k])
    decreases |effects|
  {
    if |effects| == 0 then storage
    else
      var next := match effects[0]
        case SetItem(k, v) => storage[k := v]
        case RemoveItem(k) => storage - {k}
        case _ => storage;
      assert forall x :: x in effects[1..] ==> x in effects;
      Store(next, effects[1..])
  }

  /** The auto-save timer end to end: the editor's text ends up stored
      under the page's save key, and nothing else is touched. */
  lemma AutoSaveFlow(w: World, storage: map<string, string>)
    ensures var o1 := Deliver(w, T.AutoSaveTick()[0].msg);
      && o1.world == w && o1.effects == []
      && o1.posted == [WithCode(ResponseCodeForSave, w.editor.value)]
      && var o2 := Deliver(o1.world, o1.posted[0]);
      && o2.effects == [SetItem(w.page.savedCodeKey, w.editor.value)]
      && Store(storage, o2.effects) == storage[w.page.savedCodeKey := w.editor.value]
  {
    E.RequestAnswered(w.editor, GetCodeForSave);
    E.ResponsesAreNotCommands();
    T.SaveResponseStores(w.page, w.editor.value);
  }

  /** Saving and reloading: a text saved under the key is put back into a
      freshly booted editor, unless it is empty, in which case the editor
      keeps its start-up text. */
  lemma SaveThenRestore(text: string, key: string, storage: map<string, string>, body: ThemeDetector.Body)
    ensures var after := Store(storage, [SetItem(key, text)]);
      var restore := T.RestoreSaved(if key in after then Some(after[key]) else None);
      var booted := E.Initial(body);
      var editor := E.Run(booted, seq(|restore|, i requires 0 <= i < |restore| => Event(true, restore[i].msg))).state;
      editor.value == (if text != "" then text else "// Write your code here")
  {
    var after := Store(storage, [SetItem(key, text)]);
    assert after == Store(storage[key := text], []);
    RestoreInto(E.Initial(body), text);
  }

  /** Restoring a stored text into any editor: a non-empty text replaces the
      editor's text, and an empty one is not posted at all. */
  lemma RestoreInto(s: E.EditorState, text: string)
    ensures var restore := T.RestoreSaved(Some(text));
      var es := seq(|restore|, i requires 0 <= i < |restore| => Event(true, restore[i].msg));
      E.Run(s, es).state.value == (if text != "" then text else s.value)
  {
    var restore := T.RestoreSaved(Some(text));
    var es := seq(|restore|, i requires 0 <= i < |restore| => Event(true, restore[i].msg));
    E.RunValueIsLastInserted(s, es);
    if text != "" {
      assert es == [Event(true, WithCode(InsertCode, text))];
      assert es[..0] == [];
    } else {
      assert es == [];
    }
  }

  /** A language change end to end: the editor switches to the language's
      Monaco id, which is the chosen key itself. */
  lemma LanguageChangeFlow(w: World, language: string)
    requires language in T.Languages
    ensures var r := T.OnLanguageChange(w.page.sel, language);
      var o := Deliver(w, r.1[0].msg);
      o.world.editor == w.editor.(language := language) && o.posted == [] && o.effects == []
  {
    T.LanguageTable();
  }

  /** A font change end to end: the editor's font becomes the numeric
      prefix of the chosen size (see `Toolbar.FontSizesInPixels` for the
      values of the offered sizes). */
  lemma FontChangeFlow(w: World, size: string)
    ensures var r := T.OnFontChange(w.page.sel, size);
      var o := Deliver(w, r.1[0].msg);
      o.world.editor == w.editor.(fontSize := ParseInt(size)) && o.posted == [] && o.effects == []
  {
  }
  /** A preferences load end to end: once both of its posts are delivered
      the editor shows the restored language, as its Monaco id, and the
      `parseInt` of the restored size; nothing is answered and nothing else
      changes. */
  lemma LoadPrefsFlow(w: World, storedLanguage: Option<string>, storedFont: Option<string>)
    requires T.LoadPrefs(w.page.sel, storedLanguage, storedFont).0.language in T.Languages
    ensures var r := T.LoadPrefs(w.page.sel, storedLanguage, storedFont);
      var o1 := Deliver(w, r.1[1].msg);
      var o2 := Deliver(o1.world, r.1[2].msg);
      && o2.world.editor == w.editor.(language := r.0.language, fontSize := ParseInt(r.0.fontSize))
      && o1.posted == [] && o2.posted == [] && o1.effects == [] && o2.effects == []
  {
    var r := T.LoadPrefs(w.page.sel, storedLanguage, storedFont);
    T.LanguageTable();
    assert r.1[1].msg == SetLangMsg(r.0.language);
    DeliverSetLang(w, r.0.language);
    assert r.1[2].msg == SetFontMsg(ParseInt(r.0.fontSize));
    DeliverSetFont(World(w.editor.(language := r.0.language), w.page), ParseInt(r.0.fontSize));
  }

  /** A `set-lang` message sets the editor's language and nothing else. */
  lemma DeliverSetLang(w: World, language: string)
    ensures Deliver(w, SetLangMsg(language)) == Outcome(World(w.editor.(language := language), w.page), [], [])
  {
  }

  /** A `set-font` message sets the editor's size and nothing else. */
  lemma DeliverSetFont(w: World, size: Number)
    ensures Deliver(w, SetFontMsg(size)) == Outcome(World(w.editor.(fontSize := size), w.page), [], [])
  {
  }

  /** The bridge's side of the window while the editor may still be
      loading: `None` until its listener is installed at the end of the
      deferred start-up. A message posted while it is `None` reaches no
      listener on that side and is gone; afterwards it is handled. */
  function DeliverToBridge(bridge: Option<E.EditorState>, d: Data): (r: Option<E.EditorState>)
    ensures r.None? <==> bridge.None?
    ensures bridge.Some? && (d.kind.None? || !E.IsCommand(d.kind.value)) ==> r == bridge
  {
    match bridge
    case None => None
    case Some(s) => Some(E.Handle(s, Event(true, d)).state)
  }

  /** The saved-code restore and the stored preferences are posted from
      storage callbacks registered when the content script starts, while
      the bridge's listener appears only after the editor's loading chain
      and a 0 ms timeout. If the restore is posted first it is lost: the
      editor boots with its start-up text, and the next auto-save writes
      that text over the saved code. */
  lemma EarlyRestoreLost(text: string, body: ThemeDetector.Body, p: T.ContentState, storage: map<string, string>)
    ensures var restore := T.RestoreSaved(Some(text));
      && (forall x :: x in restore ==> x.Post? && DeliverToBridge(None, x.msg).None?)
      && var w := World(E.Boot(true, body).value, p);
      var o1 := Deliver(w, T.AutoSaveTick()[0].msg);
      var o2 := Deliver(o1.world, o1.posted[0]);
      && p.savedCodeKey in Store(storage, o2.effects)
      && Store(storage, o2.effects)[p.savedCodeKey] == "// Write your code here"
  {
    var w := World(E.Boot(true, body).value, p);
    AutoSaveFlow(w, storage);
  }
}

=== FILE: scan.dfy ===
/** Leftmost matching, the search strategy of `String.prototype.match` with a
    non-global regular expression: try every start index from left to right and
    keep the first one at which the pattern matches. */
module Scan {
  import opened Wrappers

  /** The least index `i` in `from..to` at which `at(i)` matches, paired with
      that match; `None` when no index in the range matches. */
  function FirstMatch<T>(at: nat -> Option<T>, from: nat, to: nat): (r: Option<(nat, T)>)
    ensures r.None? <==> forall i :: from <= i <= to ==> at(i).None?
    ensures r.Some? ==> from <= r.value.0 <= to && at(r.value.0) == Some(r.value.1)
    ensures r.Some? ==> (forall j :: from <= j < r.value.0 ==> at(j).None?)
    decreases if from <= to then to - from + 1 else 0
  {
    if from > to then None
    else
      match at(from)
      case Some(t) => Some((from, t))
      case None => FirstMatch(at, from + 1, to)
  }

  /** The leftmost match is determined by its position alone: any matching
      index with no match before it is the one `FirstMatch` reports. */
  lemma FirstMatchAt<T>(at: nat -> Option<T>, from: nat, to: nat, i: nat)
    requires from <= i <= to && at(i).Some?
    requires forall j :: from <= j < i ==> at(j).None?
    ensures FirstMatch(at, from, to) == Some((i, at(i).value))
  {
  }
}

=== FILE: submission.dfy ===
/** The submit-page script (content/submission.js): on the site's submit page
    it takes the pending submission from storage, picks the site's language
    label, puts the code into the form's file input, clears the pending slot
    and submits. */
module Submission {
  import opened Wrappers
  import opened JsText
  import opened Messages

  /** The stored `codeToSubmit` record. */
  datatype Pending = Pending(code: string, language: string, filename: string)

  /** What the script finds of `form[action*="/submit"]`: whether it has a
      `select[name="language"]` and an `input[type="file"]`. */
  datatype SubmitForm = SubmitForm(hasLanguageSelect: bool, hasFileInput: bool)

  /** The storage key of the pending submission. */
  const PendingKey := "codeToSubmit"

  const FormMissing := "CSES Companion: Submission form not found."
  const FileInputMissing := "CSES Companion: File input not found on the form!"

  /** The extension's language keys and the site's labels for them. */
  const CsesLanguages: map<string, string> := map[
    "cpp" := "C++",
    "java" := "Java",
    "python" := "Python 3"]

  function CsesLanguage(language: string): (r: Option<string>)
    ensures r.Some? <==> language in {"cpp", "java", "python"}
    ensures language == "cpp" ==> r == Some("C++")
    ensures language == "java" ==> r == Some("Java")
    ensures language == "python" ==> r == Some("Python 3")
  {
    if language in CsesLanguages then Some(CsesLanguages[language]) else None
  }

  /** The three conditions under which the script does anything at all: the
      page URL contains `/submit`, the extension runtime is still alive and a
      pending submission is stored. */
  predicate Armed(href: string, runtimeAlive: bool, stored: Option<Pending>) {
    Includes(href, "/submit") && runtimeAlive && stored.Some?
  }

  /** The language-label effect: taken only when the form has a language
      select and the language has a label. */
  function LabelEffects(f: SubmitForm, language: string): (effects: seq<Effect>)
    ensures |effects| <= 1
    ensures effects != [] <==> f.hasLanguageSelect && CsesLanguage(language).Some?
    ensures effects != [] ==> effects == [SetLanguageLabel(CsesLanguage(language).value)]
  {
    match CsesLanguage(language)
    case Some(caption) => if f.hasLanguageSelect then [SetLanguageLabel(caption)] else []
    case None => []
  }

  /** The whole script, as the list of its effects in order. The submit is
      issued from the removal's completion callback, so it comes after the
      removal. */
  function Run(href: string, runtimeAlive: bool, stored: Option<Pending>, form: Option<SubmitForm>): (effects: seq<Effect>)
    ensures !Armed(href, runtimeAlive, stored) ==> effects == []
    ensures Armed(href, runtimeAlive, stored) && form.None? ==> effects == [LogError(FormMissing)]
  {
    if !Armed(href, runtimeAlive, stored) then []
    else
      var p := stored.value;
      match form
      case None => [LogError(FormMissing)]
      case Some(f) =>
        var tag := LabelEffects(f, p.language);
        if f.hasFileInput then
          tag + [AttachFile(File(p.filename, p.code)), RemoveItem(PendingKey), Submit]
        else tag + [LogError(FileInputMissing)]
  }

  /** When everything is present the script labels the language (if it
      can), attaches `(filename, code)`, clears the slot and submits, in that
      order. */
  lemma SuccessSequence(href: string, p: Pending, f: SubmitForm)
    requires Includes(href, "/submit") && f.hasFileInput
    ensures Run(href, true, Some(p), Some(f)) ==
      LabelEffects(f, p.language) + [AttachFile(File(p.filename, p.code)), RemoveItem(PendingKey), Submit]
  {
  }

  /** Without a file input an error is logged and neither the removal nor
      the submit happens. */
  lemma MissingFileInputKeepsSlot(href: string, p: Pending, f: SubmitForm)
    requires Includes(href, "/submit") && !f.hasFileInput
    ensures var effects := Run(href, true, Some(p), Some(f));
      && LogError(FileInputMissing) in effects
      && Submit !in effects && RemoveItem(PendingKey) !in effects
  {
  }

  /** The script submits exactly when it is armed and finds the form with a
      file input; the removal happens under exactly the same conditions. */
  lemma SubmitIff(href: string, runtimeAlive: bool, stored: Option<Pending>, form: Option<SubmitForm>)
    ensures var effects := Run(href, runtimeAlive, stored, form);
      && (Submit in effects <==>
            Armed(href, runtimeAlive, stored) && form.Some? && form.value.hasFileInput)
      && (RemoveItem(PendingKey) in effects <==> Submit in effects)
  {
  }

  /** Every submit is preceded by the removal of the pending slot, and there
      is at most one submit. */
  lemma SubmitAfterRemoval(href: string, runtimeAlive: bool, stored: Option<Pending>, form: Option<SubmitForm>)
    ensures var effects := Run(href, runtimeAlive, stored, form);
      forall i :: 0 <= i < |effects| && effects[i] == Submit ==>
        i == |effects| - 1 && 0 < i && effects[i - 1] == RemoveItem(PendingKey)
  {
    var effects := Run(href, runtimeAlive, stored, form);
    if Armed(href, runtimeAlive, stored) && form.Some? {
      var tag := LabelEffects(form.value, stored.value.language);
      assert forall k :: 0 <= k < |tag| ==> effects[k] == tag[k] && !tag[k].Submit?;
    }
  }

  /** The pending slot after the script's storage effects. */
  function SlotAfter(stored: Option<Pending>, effects: seq<Effect>): (r: Option<Pending>)
    ensures RemoveItem(PendingKey) in effects ==> r.None?
    ensures RemoveItem(PendingKey) !in effects ==> r == stored
  {
    if RemoveItem(PendingKey) in effects then None else stored
  }

  /** A pending submission is consumed at most once: when the page runs the
      script again on what is left in storage, nothing more is submitted. */
  lemma ConsumedOnce(href: string, runtimeAlive: bool, p: Pending, form: Option<SubmitForm>, form': Option<SubmitForm>)
    requires Submit in Run(href, runtimeAlive, Some(p), form)
    ensures var left := SlotAfter(Some(p), Run(href, runtimeAlive, Some(p), form));
      left.None? && Run(href, runtimeAlive, left, form') == []
  {
    SubmitIff(href, runtimeAlive, Some(p), form);
  }

  /** A failed attempt leaves the pending submission for the next visit. */
  lemma FailureRetains(href: string, runtimeAlive: bool, p: Pending, form: Option<SubmitForm>)
    requires form.None? || !form.value.hasFileInput
    ensures SlotAfter(Some(p), Run(href, runtimeAlive, Some(p), form)) == Some(p)
  {
    SubmitIff(href, runtimeAlive, Some(p), form);
  }
}

=== FILE: theme_detector.dfy ===
/** The page-theme classifier `getWebsiteTheme` and the attribute-mutation
    filter of the theme observer (content/initializer.js). */
module ThemeDetector {
  import opened Wrappers
  import opened JsText
  import Scan

  /** What the classifier reads of the page: the computed background colour
      of `<body>` and the body's class list. */
  datatype Body = Body(backgroundColor: string, classList: seq<string>)

  /** A half-open range `[start, end)` of indices into the colour string. */
  datatype Span = Span(start: nat, end: nat)

  /** One match of the pattern /\d+,\s*\d+,\s*\d+/, given by the spans of
      its three digit runs; the commas sit right after the first two runs and
      the white-space gaps fill the rest. */
  datatype TripleMatch = TripleMatch(red: Span, green: Span, blue: Span)

  predicate AllIn(s: string, a: nat, b: nat, p: char -> bool) {
    a <= b <= |s| && forall k :: a <= k < b ==> p(s[k])
  }

  /** `m` is an occurrence of the pattern in `s` starting at index `i`. */
  predicate IsMatchAt(s: string, i: nat, m: TripleMatch) {
    && m.red.start == i && i < m.red.end && AllIn(s, i, m.red.end, IsDigit)
    && m.red.end < |s| && s[m.red.end] == ','
    && AllIn(s, m.red.end + 1, m.green.start, IsSpace)
    && m.green.start < m.green.end && AllIn(s, m.green.start, m.green.end, IsDigit)
    && m.green.end < |s| && s[m.green.end] == ','
    && AllIn(s, m.green.end + 1, m.blue.start, IsSpace)
    && m.blue.start < m.blue.end && AllIn(s, m.blue.start, m.blue.end, IsDigit)
  }

  /** The last `\d+` took every digit available (the other runs are bounded
      by a comma or by a digit and cannot be extended anyway). */
  predicate IsGreedy(s: string, m: TripleMatch) {
    m.blue.end == |s| || (m.blue.end < |s| && !IsDigit(s[m.blue.end]))
  }

  /** The first digit run `[i, j)` is followed by a comma. */
  predicate RedOk(s: string, i: nat, j: nat) {
    i < j < |s| && AllIn(s, i, j, IsDigit) && s[j] == ','
  }

  /** ... and then a gap `[j + 1, k)` and the second run `[k, l)`, followed
      by the second comma. */
  predicate GreenOk(s: string, i: nat, j: nat, k: nat, l: nat) {
    && RedOk(s, i, j) && AllIn(s, j + 1, k, IsSpace)
    && k < l < |s| && AllIn(s, k, l, IsDigit) && s[l] == ','
  }

  /** The match of the pattern starting exactly at index `i` of `s`, if any,
      with every quantifier greedy as in JavaScript. The pattern is consumed
      in stages, one function per stage. */
  function MatchAt(s: string, i: nat): (r: Option<TripleMatch>)
    ensures r.Some? ==> IsMatchAt(s, i, r.value) && IsGreedy(s, r.value)
  {
    if i > |s| then None else RedRun(s, i, i + SpanWhile(s, i, IsDigit))
  }

  /** `\d+` took `[i, j)`; a comma must follow. */
  function RedRun(s: string, i: nat, j: nat): (r: Option<TripleMatch>)
    requires i <= j <= |s| && AllIn(s, i, j, IsDigit)
    ensures r.Some? ==> IsMatchAt(s, i, r.value) && IsGreedy(s, r.value)
  {
    if j == i || j == |s| || s[j] != ',' then None
    else GreenAt(s, i, j, j + 1 + SpanWhile(s, j + 1, IsSpace))
  }

  /** `\s*` took `[j + 1, k)`; the second `\d+` starts at `k`. */
  function GreenAt(s: string, i: nat, j: nat, k: nat): (r: Option<TripleMatch>)
    requires RedOk(s, i, j) && j + 1 <= k <= |s| && AllIn(s, j + 1, k, IsSpace)
    ensures r.Some? ==> IsMatchAt(s, i, r.value) && IsGreedy(s, r.value)
  {
    GreenRun(s, i, j, k, k + SpanWhile(s, k, IsDigit))
  }

  /** The second `\d+` took `[k, l)`; a comma must follow. */
  function GreenRun(s: string, i: nat, j: nat, k: nat, l: nat): (r: Option<TripleMatch>)
    requires RedOk(s, i, j) && j + 1 <= k <= l <= |s|
    requires AllIn(s, j + 1, k, IsSpace) && AllIn(s, k, l, IsDigit)
    ensures r.Some? ==> IsMatchAt(s, i, r.value) && IsGreedy(s, r.value)
  {
    if l == k || l == |s| || s[l] != ',' then None
    else BlueAt(s, i, j, k, l, l + 1 + SpanWhile(s, l + 1, IsSpace))
  }

  /** The second `\s*` took `[l + 1, n)`; the last `\d+` takes every digit
      from `n` on and must take at least one. */
  function BlueAt(s: string, i: nat, j: nat, k: nat, l: nat, n: nat): (r: Option<TripleMatch>)
    requires GreenOk(s, i, j, k, l) && l + 1 <= n <= |s| && AllIn(s, l + 1, n, IsSpace)
    ensures r.Some? ==> IsMatchAt(s, i, r.value) && IsGreedy(s, r.value)
    ensures r.Some? ==> r.value.red == Span(i, j) && r.value.green == Span(k, l)
    ensures r.Some? ==> r.value.blue.start == n
    ensures r.None? <==> n == |s| || !IsDigit(s[n])
  {
    var e := n + SpanWhile(s, n, IsDigit);
    if e == n then None
    else Some(TripleMatch(Span(i, j), Span(k, l), Span(n, e)))
  }

  lemma RedStep(s: string, i: nat, m: TripleMatch)
    requires IsMatchAt(s, i, m)
    ensures MatchAt(s, i) == GreenAt(s, i, m.red.end, m.green.start)
  {
    RunEnd(s, i, m.red.end);
    MatchAtUnfold(s, i, m.red.end);
    RedGap(s, i, m.red.end, m.green.start);
  }

  lemma MatchAtUnfold(s: string, i: nat, j: nat)
    requires i <= |s| && j == i + SpanWhile(s, i, IsDigit)
    ensures MatchAt(s, i) == RedRun(s, i, j)
  {
    assert MatchAt(s, i) == RedRun(s, i, i + SpanWhile(s, i, IsDigit));
  }

  /** A digit run `[a, b)` followed by a non-digit (or the end) is exactly
      what `\d+` consumes from `a`. */
  lemma RunEnd(s: string, a: nat, b: nat)
    requires AllIn(s, a, b, IsDigit) && (b == |s| || !IsDigit(s[b]))
    ensures a + SpanWhile(s, a, IsDigit) == b
  {
    SpanWhileUnique(s, a, IsDigit, b - a);
  }

  /** After the red run and its comma, the gap ends where the green run
      starts. */
  lemma RedGap(s: string, i: nat, j: nat, k: nat)
    requires RedOk(s, i, j) && j + 1 <= k < |s|
    requires AllIn(s, j + 1, k, IsSpace) && IsDigit(s[k])
    ensures RedRun(s, i, j) == GreenAt(s, i, j, k)
  {
    GapEnd(s, j + 1, k);
    RedRunUnfold(s, i, j, k);
  }

  lemma RedRunUnfold(s: string, i: nat, j: nat, k: nat)
    requires RedOk(s, i, j) && k == j + 1 + SpanWhile(s, j + 1, IsSpace)
    ensures RedRun(s, i, j) == GreenAt(s, i, j, k)
  {
    assert RedRun(s, i, j) == GreenAt(s, i, j, j + 1 + SpanWhile(s, j + 1, IsSpace));
  }

  /** A white-space gap `[a, b)` followed by a digit is exactly what `\s*`
      consumes from `a`. */
  lemma GapEnd(s: string, a: nat, b: nat)
    requires AllIn(s, a, b, IsSpace) && b < |s| && IsDigit(s[b])
    ensures a + SpanWhile(s, a, IsSpace) == b
  {
    DigitNotSpace(s[b]);
    SpanWhileUnique(s, a, IsSpace, b - a);
  }

  lemma GreenStep(s: string, i: nat, m: TripleMatch)
    requires IsMatchAt(s, i, m)
    ensures GreenAt(s, i, m.red.end, m.green.start)
         == BlueAt(s, i, m.red.end, m.green.start, m.green.end, m.blue.start)
  {
    var j, k, l := m.red.end, m.green.start, m.green.end;
    RunEnd(s, k, l);
    GreenAtUnfold(s, i, j, k, l);
    GreenGap(s, i, j, k, l, m.blue.start);
  }

  lemma GreenAtUnfold(s: string, i: nat, j: nat, k: nat, l: nat)
    requires RedOk(s, i, j) && j + 1 <= k <= |s| && AllIn(s, j + 1, k, IsSpace)
    requires l == k + SpanWhile(s, k, IsDigit)
    ensures GreenAt(s, i, j, k) == GreenRun(s, i, j, k, l)
  {
    assert GreenAt(s, i, j, k) == GreenRun(s, i, j, k, k + SpanWhile(s, k, IsDigit));
  }

  /** After the green run and its comma, the gap ends where the blue run
      starts. */
  lemma GreenGap(s: string, i: nat, j: nat, k: nat, l: nat, n: nat)
    requires GreenOk(s, i, j, k, l) && l + 1 <= n < |s|
    requires AllIn(s, l + 1, n, IsSpace) && IsDigit(s[n])
    ensures GreenRun(s, i, j, k, l) == BlueAt(s, i, j, k, l, n)
  {
    GapEnd(s, l + 1, n);
    GreenRunUnfold(s, i, j, k, l, n);
  }

  lemma GreenRunUnfold(s: string, i: nat, j: nat, k: nat, l: nat, n: nat)
    requires GreenOk(s, i, j, k, l) && n == l + 1 + SpanWhile(s, l + 1, IsSpace)
    ensures GreenRun(s, i, j, k, l) == BlueAt(s, i, j, k, l, n)
  {
    assert GreenRun(s, i, j, k, l) == BlueAt(s, i, j, k, l, l + 1 + SpanWhile(s, l + 1, IsSpace));
  }

  lemma BlueStep(s: string, i: nat, m: TripleMatch)
    requires IsMatchAt(s, i, m)
    ensures var r := BlueAt(s, i, m.red.end, m.green.start, m.green.end, m.blue.start);
      && r.Some? && r.value.blue.end >= m.blue.end
      && (IsGreedy(s, m) ==> r == Some(m))
  {
    if IsGreedy(s, m) {
      SpanWhileUnique(s, m.blue.start, IsDigit, m.blue.end - m.blue.start);
    }
  }

  /** The pattern occurs at `i` exactly when `MatchAt` finds a match there.
      The occurrence it reports shares the first two runs and the start of
      the third with any other occurrence at `i`, and takes the longest third
      run; so it is the only greedy occurrence. */
  lemma MatchAtComplete(s: string, i: nat, m: TripleMatch)
    requires IsMatchAt(s, i, m)
    ensures MatchAt(s, i).Some?
    ensures MatchAt(s, i).value.red == m.red && MatchAt(s, i).value.green == m.green
    ensures MatchAt(s, i).value.blue.start == m.blue.start
    ensures MatchAt(s, i).value.blue.end >= m.blue.end
    ensures IsGreedy(s, m) ==> MatchAt(s, i) == Some(m)
  {
    RedStep(s, i, m);
    GreenStep(s, i, m);
    BlueStep(s, i, m);
  }

  /** `bgColor.match(/\d+,\s*\d+,\s*\d+/)`: the leftmost match in the
      colour string, or `None` (JavaScript `null`). */
  function FirstTriple(s: string): (r: Option<TripleMatch>)
    ensures r.None? <==> forall i :: 0 <= i <= |s| ==> MatchAt(s, i).None?
    ensures r.Some? ==> IsMatchAt(s, r.value.red.start, r.value) && IsGreedy(s, r.value)
    ensures r.Some? ==> forall j :: 0 <= j < r.value.red.start ==> MatchAt(s, j).None?
  {
    var at := (i: nat) => MatchAt(s, i);
    assert forall i: nat :: at(i) == MatchAt(s, i);
    match Scan.FirstMatch(at, 0, |s|)
    case None => None
    case Some((_, m)) => Some(m)
  }

  /** A match is found at the leftmost index where the pattern occurs at all
      (greedy or not), and nowhere earlier. */
  lemma FirstTripleIsLeftmost(s: string, i: nat, m: TripleMatch)
    requires IsMatchAt(s, i, m)
    requires forall j, m' :: 0 <= j < i ==> !IsMatchAt(s, j, m')
    ensures FirstTriple(s).Some? && FirstTriple(s).value.red == m.red
    ensures IsGreedy(s, m) ==> FirstTriple(s) == Some(m)
  {
    MatchAtComplete(s, i, m);
  }

  /** `bgColorMatch[0]`, the matched text. */
  function MatchedText(s: string, m: TripleMatch): string
    requires IsMatchAt(s, m.red.start, m)
  {
    s[m.red.start..m.blue.end]
  }

  /** The decimal value of a digit run of the colour string. */
  function Channel(s: string, sp: Span): nat
    requires AllIn(s, sp.start, sp.end, IsDigit)
  {
    var d := s[sp.start..sp.end];
    assert forall k :: 0 <= k < |d| ==> d[k] == s[sp.start + k];
    Decimal(d)
  }

  function Red(s: string, m: TripleMatch): nat
    requires IsMatchAt(s, m.red.start, m)
  {
    Channel(s, m.red)
  }

  function Green(s: string, m: TripleMatch): nat
    requires IsMatchAt(s, m.red.start, m)
  {
    Channel(s, m.green)
  }

  function Blue(s: string, m: TripleMatch): nat
    requires IsMatchAt(s, m.red.start, m)
  {
    Channel(s, m.blue)
  }

  /** `bgColorMatch[0].split(',').map(n => parseInt(n.trim()))`: the
      matched text splits into exactly three pieces (the red run, the first
      gap with the green run, the second gap with the blue run), and each
      trimmed piece parses to its channel's value. */
  lemma ChannelsAreParseInt(s: string, m: TripleMatch)
    requires IsMatchAt(s, m.red.start, m)
    ensures var parts := Split(MatchedText(s, m), ',');
      && |parts| == 3
      && ParseInt(Trim(parts[0])) == Int(Red(s, m))
      && ParseInt(Trim(parts[1])) == Int(Green(s, m))
      && ParseInt(Trim(parts[2])) == Int(Blue(s, m))
  {
    MatchedTextSplits(s, m);
    RedParse(s, m);
    GreenParse(s, m);
    BlueParse(s, m);
  }

  /** The three comma-separated pieces of a match. */
  lemma MatchedTextSplits(s: string, m: TripleMatch)
    requires IsMatchAt(s, m.red.start, m)
    ensures Split(MatchedText(s, m), ',') ==
      [s[m.red.start..m.red.end], s[m.red.end + 1..m.green.end], s[m.green.end + 1..m.blue.end]]
  {
    var p1 := s[m.red.start..m.red.end];
    var p2 := s[m.red.end + 1..m.green.end];
    var p3 := s[m.green.end + 1..m.blue.end];
    NoComma(s, m.red.start, m.red.start, m.red.end);
    NoComma(s, m.red.end + 1, m.green.start, m.green.end);
    NoComma(s, m.green.end + 1, m.blue.start, m.blue.end);
    assert MatchedText(s, m) == p1 + [','] + (p2 + [','] + p3);
    SplitAtSep(p1, ',', p2 + [','] + p3);
    SplitAtSep(p2, ',', p3);
    SplitNoSep(p3, ',');
  }

  /** A gap followed by a digit run holds no comma. */
  lemma NoComma(s: string, a: nat, b: nat, c: nat)
    requires AllIn(s, a, b, IsSpace) && AllIn(s, b, c, IsDigit)
    ensures forall k :: 0 <= k < c - a ==> s[a..c][k] != ','
  {
    assert forall k :: a <= k < c ==> IsSpace(s[k]) || IsDigit(s[k]);
  }

  lemma RedParse(s: string, m: TripleMatch)
    requires IsMatchAt(s, m.red.start, m)
    ensures ParseInt(Trim(s[m.red.start..m.red.end])) == Int(Red(s, m))
  {
    assert Red(s, m) == Channel(s, m.red);
    PieceParse(s, m.red.start, m.red);
  }

  lemma GreenParse(s: string, m: TripleMatch)
    requires IsMatchAt(s, m.red.start, m)
    ensures ParseInt(Trim(s[m.red.end + 1..m.green.end])) == Int(Green(s, m))
  {
    assert Green(s, m) == Channel(s, m.green);
    PieceParse(s, m.red.end + 1, m.green);
  }

  lemma BlueParse(s: string, m: TripleMatch)
    requires IsMatchAt(s, m.red.start, m)
    ensures ParseInt(Trim(s[m.green.end + 1..m.blue.end])) == Int(Blue(s, m))
  {
    assert Blue(s, m) == Channel(s, m.blue);
    PieceParse(s, m.green.end + 1, m.blue);
  }

  /** A piece made of white space from `a` followed by the digit run `sp`
      trims to the run, which parses to the run's value. */
  lemma PieceParse(s: string, a: nat, sp: Span)
    requires AllIn(s, a, sp.start, IsSpace)
    requires sp.start < sp.end && AllIn(s, sp.start, sp.end, IsDigit)
    ensures ParseInt(Trim(s[a..sp.end])) == Int(Channel(s, sp))
  {
    PieceTrim(s, a, sp);
    RunParse(s, sp);
  }

  /** The piece trims to its digit run. */
  lemma PieceTrim(s: string, a: nat, sp: Span)
    requires AllIn(s, a, sp.start, IsSpace)
    requires sp.start < sp.end && AllIn(s, sp.start, sp.end, IsDigit)
    ensures Trim(s[a..sp.end]) == s[sp.start..sp.end]
  {
    var gap := s[a..sp.start];
    var d := s[sp.start..sp.end];
    assert s[a..sp.end] == gap + d;
    assert AllSpaces(gap) by {
      assert forall k :: 0 <= k < |gap| ==> gap[k] == s[a + k];
    }
    assert AllDigits(d) by {
      assert forall k :: 0 <= k < |d| ==> d[k] == s[sp.start + k];
    }
    TrimSpacesDigits(gap, d);
  }

  /** A digit run parses to its value. */
  lemma RunParse(s: string, sp: Span)
    requires sp.start < sp.end && AllIn(s, sp.start, sp.end, IsDigit)
    ensures ParseInt(s[sp.start..sp.end]) == Int(Channel(s, sp))
  {
    var d := s[sp.start..sp.end];
    assert forall k :: 0 <= k < |d| ==> d[k] == s[sp.start + k];
    ParseIntDecimalPrefix(d, []);
    assert d + [] == d;
  }

  /** The weighted brightness of a match, scaled by 1000 so that it is an
      integer: `299r + 587g + 114b`. */
  function Brightness1000(s: string, m: TripleMatch): nat
    requires IsMatchAt(s, m.red.start, m)
  {
    299 * Red(s, m) + 587 * Green(s, m) + 114 * Blue(s, m)
  }

  predicate HasDarkClass(b: Body) {
    "dark-theme" in b.classList || "dark" in b.classList
  }

  /** `getWebsiteTheme()`: true means dark. The brightness is compared as the
      source computes it, `(r*299 + g*587 + b*114) / 1000 < 128`. */
  function WebsiteIsDark(b: Body): (r: bool)
    ensures FirstTriple(b.backgroundColor).None? ==> r
    ensures HasDarkClass(b) ==> r
    ensures !r ==> FirstTriple(b.backgroundColor).Some? && !HasDarkClass(b)
  {
    var bg := b.backgroundColor;
    match FirstTriple(bg)
    case Some(m) => (Brightness1000(bg, m) as real) / 1000.0 < 128.0 || HasDarkClass(b)
    case None => true
  }

  /** The classifier's truth table in integer terms: dark exactly when no
      triple parses, when `299r + 587g + 114b < 128000`, or when the body has
      a dark class; so "light" needs a parsed triple, a bright colour and no
      dark class. */
  lemma WebsiteIsDarkTruthTable(b: Body)
    ensures var bg := b.backgroundColor;
      WebsiteIsDark(b) <==>
        || FirstTriple(bg).None?
        || Brightness1000(bg, FirstTriple(bg).value) < 128000
        || HasDarkClass(b)
    ensures var bg := b.backgroundColor;
      !WebsiteIsDark(b) <==>
        && FirstTriple(bg).Some?
        && Brightness1000(bg, FirstTriple(bg).value) >= 128000
        && !HasDarkClass(b)
  {
    var bg := b.backgroundColor;
    match FirstTriple(bg)
    case Some(m) =>
      var x := Brightness1000(bg, m);
      assert (x as real) / 1000.0 < 128.0 <==> x < 128000;
    case None =>
  }

  /** With no digit triple in the colour the verdict is dark whatever the
      class list says. */
  lemma NoTripleIsDark(bg: string, classes: seq<string>)
    requires forall i, m :: 0 <= i <= |bg| ==> !IsMatchAt(bg, i, m)
    ensures WebsiteIsDark(Body(bg, classes))
  {
  }

  /** The numerals of `r`, `g` and `b` joined by `", "`, between a prefix
      and a suffix: the shape of the computed-style colours `rgb(r, g, b)`
      and `rgba(r, g, b, a)`. */
  function Colour(prefix: string, r: nat, g: nat, b: nat, suffix: string): string {
    prefix + (NatToDigits(r) + (", " + (NatToDigits(g) + (", " + (NatToDigits(b) + suffix)))))
  }

  /** A digit string `d` at the front of `s[a..]` is a digit run. */
  lemma DigitsThen(s: string, a: nat, d: string, rest: string)
    requires a <= |s| && s[a..] == d + rest && AllDigits(d)
    ensures a + |d| <= |s| && AllIn(s, a, a + |d|, IsDigit)
    ensures s[a + |d|..] == rest
  {
    assert forall k :: a <= k < a + |d| ==> s[k] == s[a..][k - a];
    assert s[a..a + |d|] == s[a..][..|d|];
    assert s[a + |d|..] == s[a..][|d|..];
  }

  /** A `", "` at the front of `s[a..]` is a comma and a one-space gap. */
  lemma CommaGap(s: string, a: nat, rest: string)
    requires a <= |s| && s[a..] == ", " + rest
    ensures a + 2 <= |s| && s[a] == ',' && s[a + 1] == ' '
    ensures s[a + 2..] == rest
  {
    assert s[a] == s[a..][0] && s[a + 1] == s[a..][1];
    assert s[a + 2..] == s[a..][2..];
  }

  /** Where the three runs of `prefix + d1 + ", " + d2 + ", " + d3 + ...`
      lie, for digit strings of lengths `n1`, `n2`, `n3`. */
  function LayoutMatch(a: nat, n1: nat, n2: nat, n3: nat): (m: TripleMatch)
    ensures m.red.start == a && m.blue.end == a + n1 + n2 + n3 + 4
  {
    TripleMatch(Span(a, a + n1), Span(a + n1 + 2, a + n1 + 2 + n2),
                Span(a + n1 + n2 + 4, a + n1 + n2 + 4 + n3))
  }

  /** The blue digits `d` at the front of `s[k..]`, followed by a suffix
      that does not continue them, form a greedy final run. */
  lemma BlueTail(s: string, k: nat, d: string, suffix: string)
    requires |d| > 0 && AllDigits(d) && (suffix == [] || !IsDigit(suffix[0]))
    requires k <= |s| && s[k..] == d + suffix
    ensures k + |d| <= |s| && AllIn(s, k, k + |d|, IsDigit) && s[k..k + |d|] == d
    ensures k + |d| == |s| || !IsDigit(s[k + |d|])
  {
    DigitsThen(s, k, d, suffix);
    assert s[k..k + |d|] == s[k..][..|d|];
    if k + |d| < |s| {
      assert s[k + |d|] == s[k + |d|..][0];
    }
  }

  /** From the comma at `j` on, `", " + d2 + ", " + d3 + suffix` supplies
      the rest of a match: green run at `j + 2`, blue run two after its end. */
  lemma GreenTail(s: string, j: nat, d2: string, d3: string, suffix: string)
    requires |d2| > 0 && AllDigits(d2) && |d3| > 0 && AllDigits(d3)
    requires suffix == [] || !IsDigit(suffix[0])
    requires j <= |s| && s[j..] == ", " + (d2 + (", " + (d3 + suffix)))
    ensures var l := j + 2 + |d2|;
      && l + 2 + |d3| <= |s| && s[j] == ',' && AllIn(s, j + 1, j + 2, IsSpace)
      && AllIn(s, j + 2, l, IsDigit) && s[j + 2..l] == d2
      && s[l] == ',' && AllIn(s, l + 1, l + 2, IsSpace)
      && AllIn(s, l + 2, l + 2 + |d3|, IsDigit) && s[l + 2..l + 2 + |d3|] == d3
      && (l + 2 + |d3| == |s| || !IsDigit(s[l + 2 + |d3|]))
  {
    var l := j + 2 + |d2|;
    CommaGap(s, j, d2 + (", " + (d3 + suffix)));
    DigitsThen(s, j + 2, d2, ", " + (d3 + suffix));
    assert s[j + 2..l] == s[j + 2..][..|d2|];
    CommaGap(s, l, d3 + suffix);
    BlueTail(s, l + 2, d3, suffix);
  }

  /** Three non-empty digit strings separated by `", "` at the front of
      `s[a..]` form a greedy match at `a`, and each run holds its digit
      string. */
  lemma RunsAt(s: string, a: nat, d1: string, d2: string, d3: string, suffix: string)
    requires |d1| > 0 && |d2| > 0 && |d3| > 0
    requires AllDigits(d1) && AllDigits(d2) && AllDigits(d3)
    requires suffix == [] || !IsDigit(suffix[0])
    requires a <= |s| && s[a..] == d1 + (", " + (d2 + (", " + (d3 + suffix))))
    ensures var m := LayoutMatch(a, |d1|, |d2|, |d3|);
      && IsMatchAt(s, a, m) && IsGreedy(s, m)
      && s[m.red.start..m.red.end] == d1
      && s[m.green.start..m.green.end] == d2
      && s[m.blue.start..m.blue.end] == d3
  {
    var tail := ", " + (d2 + (", " + (d3 + suffix)));
    DigitsThen(s, a, d1, tail);
    assert s[a..a + |d1|] == s[a..][..|d1|];
    GreenTail(s, a + |d1|, d2, d3, suffix);
  }

  /** The same, right after a prefix. */
  lemma Layout(prefix: string, d1: string, d2: string, d3: string, suffix: string)
    requires |d1| > 0 && |d2| > 0 && |d3| > 0
    requires AllDigits(d1) && AllDigits(d2) && AllDigits(d3)
    requires suffix == [] || !IsDigit(suffix[0])
    ensures var s := prefix + (d1 + (", " + (d2 + (", " + (d3 + suffix)))));
      var m := LayoutMatch(|prefix|, |d1|, |d2|, |d3|);
      && IsMatchAt(s, |prefix|, m) && IsGreedy(s, m)
      && s[m.red.start..m.red.end] == d1
      && s[m.green.start..m.green.end] == d2
      && s[m.blue.start..m.blue.end] == d3
      && s[..|prefix|] == prefix
  {
    var rest := d1 + (", " + (d2 + (", " + (d3 + suffix))));
    var s := prefix + rest;
    assert s[|prefix|..] == rest;
    RunsAt(s, |prefix|, d1, d2, d3, suffix);
    assert s[..|prefix|] == prefix;
  }

  /** Reading a colour of that shape recovers `(r, g, b)` exactly, provided
      the prefix has no digit and the suffix does not continue the blue
      numeral. */
  lemma ColourChannels(prefix: string, r: nat, g: nat, b: nat, suffix: string)
    requires forall x :: 0 <= x < |prefix| ==> !IsDigit(prefix[x])
    requires suffix == [] || !IsDigit(suffix[0])
    ensures var s := Colour(prefix, r, g, b, suffix);
      && FirstTriple(s).Some?
      && Red(s, FirstTriple(s).value) == r
      && Green(s, FirstTriple(s).value) == g
      && Blue(s, FirstTriple(s).value) == b
  {
    var s := Colour(prefix, r, g, b, suffix);
    var dr, dg, db := NatToDigits(r), NatToDigits(g), NatToDigits(b);
    var m := LayoutMatch(|prefix|, |dr|, |dg|, |db|);
    Layout(prefix, dr, dg, db, suffix);
    forall j, m' | 0 <= j < |prefix|
      ensures !IsMatchAt(s, j, m')
    {
      assert s[j] == s[..|prefix|][j];
    }
    FirstTripleIsLeftmost(s, |prefix|, m);
  }

  /** Reading an `rgb(r, g, b)` colour recovers exactly `(r, g, b)`, so the
      verdict for it is dark iff `299r + 587g + 114b < 128000` or a dark class
      is present. */
  lemma RgbVerdict(r: nat, g: nat, b: nat, classes: seq<string>)
    ensures WebsiteIsDark(Body(Colour("rgb(", r, g, b, ")"), classes)) <==>
      299 * r + 587 * g + 114 * b < 128000 || "dark" in classes || "dark-theme" in classes
  {
    ColourChannels("rgb(", r, g, b, ")");
    WebsiteIsDarkTruthTable(Body(Colour("rgb(", r, g, b, ")"), classes));
  }

  /** An `rgba(r, g, b, alpha)` colour is judged on its first three channels
      only; the alpha text, integer or fractional (`0.5`), plays no part. */
  lemma RgbaVerdict(r: nat, g: nat, b: nat, alpha: string, classes: seq<string>)
    ensures var bg := Colour("rgba(", r, g, b, ", " + alpha + ")");
      WebsiteIsDark(Body(bg, classes)) <==>
        299 * r + 587 * g + 114 * b < 128000 || "dark" in classes || "dark-theme" in classes
  {
    var suffix := ", " + alpha + ")";
    assert suffix[0] == ',';
    ColourChannels("rgba(", r, g, b, suffix);
    WebsiteIsDarkTruthTable(Body(Colour("rgba(", r, g, b, suffix), classes));
  }

  /** The colour a fully transparent body reports. */
  lemma TransparentText()
    ensures Colour("rgba(", 0, 0, 0, ", 0)") == "rgba(0, 0, 0, 0)"
  {
    assert NatToDigits(0) == "0";
  }

  /** A fully transparent `rgba(0, 0, 0, 0)` body reads as (0, 0, 0), so it
      is dark whatever its classes. */
  lemma TransparentIsDark(classes: seq<string>)
    ensures WebsiteIsDark(Body("rgba(0, 0, 0, 0)", classes))
  {
    var suffix := ", " + "0" + ")";
    assert suffix == ", 0)";
    TransparentText();
    RgbaVerdict(0, 0, 0, "0", classes);
    assert Colour("rgba(", 0, 0, 0, suffix) == "rgba(0, 0, 0, 0)";
  }

  /** The worked examples: `rgb(10, 10, 10)` is dark, `rgb(250, 250, 250)`
      with no class is light, and the same light colour with class `dark` is
      dark. */
  lemma ThemeExamples()
    ensures WebsiteIsDark(Body(Colour("rgb(", 10, 10, 10, ")"), []))
    ensures !WebsiteIsDark(Body(Colour("rgb(", 250, 250, 250, ")"), []))
    ensures WebsiteIsDark(Body(Colour("rgb(", 250, 250, 250, ")"), ["dark"]))
  {
    RgbVerdict(10, 10, 10, []);
    RgbVerdict(250, 250, 250, []);
    RgbVerdict(250, 250, 250, ["dark"]);
  }

  /** The local `isDarkTheme` of `getWebsiteTheme` (a non-empty colour not
      containing `255, 255, 255`); it is computed but never returned. */
  predicate DeadWhiteCheck(bg: string) {
    |bg| > 0 && !Includes(bg, "255, 255, 255")
  }

  /** The dead check is not the verdict: an empty colour string and a white
      body carrying class `dark` both fail it, yet both are classified dark. */
  lemma DeadWhiteCheckIsNotTheVerdict()
    ensures !DeadWhiteCheck("") && WebsiteIsDark(Body("", []))
    ensures !DeadWhiteCheck(Colour("rgb(", 255, 255, 255, ")"))
      && WebsiteIsDark(Body(Colour("rgb(", 255, 255, 255, ")"), ["dark"]))
  {
    WhiteIncludesTriple("rgb(", ")");
    RgbVerdict(255, 255, 255, ["dark"]);
  }

  /** A white colour contains the text `255, 255, 255`. */
  lemma WhiteIncludesTriple(prefix: string, suffix: string)
    ensures Includes(Colour(prefix, 255, 255, 255, suffix), "255, 255, 255")
  {
    Numeral255();
    TripleOccurs(prefix, NatToDigits(255), suffix);
  }

  lemma Numeral255()
    ensures NatToDigits(255) == "255"
  {
    assert NatToDigits(25) == "25" by {
      assert NatToDigits(2) == "2";
    }
  }

  lemma TripleOccurs(prefix: string, d: string, suffix: string)
    requires d == "255"
    ensures OccursAt(prefix + (d + (", " + (d + (", " + (d + suffix))))), |prefix|, "255, 255, 255")
  {
    var s := prefix + (d + (", " + (d + (", " + (d + suffix)))));
    var a := |prefix|;
    assert s[a..] == (d + ", " + d + ", " + d) + suffix;
    assert s[a..a + 13] == s[a..][..13];
  }

  /** One DOM mutation record as the observer callback sees it. */
  datatype Mutation = Mutation(kind: string, attributeName: Option<string>)

  predicate IsThemeMutation(m: Mutation) {
    m.kind == "attributes"
    && (m.attributeName == Some("class") || m.attributeName == Some("style")
        || m.attributeName == Some("data-theme"))
  }

  /** The observer callback's loop: scan the batch, stop at the first
      attribute mutation of `class`, `style` or `data-theme`. */
  function ThemeChanged(ms: seq<Mutation>): (changed: bool)
    ensures changed <==> exists i :: 0 <= i < |ms| && IsThemeMutation(ms[i])
  {
    if |ms| == 0 then false
    else if IsThemeMutation(ms[0]) then true
    else
      var rest := ThemeChanged(ms[1..]);
      assert forall i :: 1 <= i < |ms| ==> ms[i] == ms[1..][i - 1];
      rest
  }

  /** The decision ignores the order of the batch. */
  lemma {:induction false} ThemeChangedOrderIndependent(a: seq<Mutation>, b: seq<Mutation>)
    requires multiset(a) == multiset(b)
    ensures ThemeChanged(a) == ThemeChanged(b)
  {
    if ThemeChanged(a) {
      var i :| 0 <= i < |a| && IsThemeMutation(a[i]);
      assert a[i] in multiset(b);
      var j :| 0 <= j < |b| && b[j] == a[i];
    }
    if ThemeChanged(b) {
      var i :| 0 <= i < |b| && IsThemeMutation(b[i]);
      assert b[i] in multiset(a);
      var j :| 0 <= j < |a| && a[j] == b[i];
    }
  }

  /** Adding mutations to a batch can only turn the decision on, and a batch
      split in two fires iff one of its halves does. */
  lemma ThemeChangedAppend(a: seq<Mutation>, b: seq<Mutation>)
    ensures ThemeChanged(a + b) <==> ThemeChanged(a) || ThemeChanged(b)
  {
    if ThemeChanged(b) {
      var i :| 0 <= i < |b| && IsThemeMutation(b[i]);
      assert (a + b)[|a| + i] == b[i];
    }
    if ThemeChanged(a) {
      var i :| 0 <= i < |a| && IsThemeMutation(a[i]);
      assert (a + b)[i] == a[i];
    }
    if ThemeChanged(a + b) {
      var i :| 0 <= i < |a + b| && IsThemeMutation((a + b)[i]);
      if i >= |a| {
        assert (a + b)[i] == b[i - |a|];
      }
    }
  }
}

=== FILE: toolbar.dfy ===
/** The content script's toolbar rules (content/content.js): the language
    table, the saved-code key taken from the page URL, what each selector and
    button posts and stores, the template options, the saved-code restore and
    the listener for the editor bridge's answers. */
module Toolbar {
  import opened Wrappers
  import opened JsText
  import opened Messages
  import Scan

  /** One entry of the `languages` table. */
  datatype Profile = Profile(name: string, monacoLang: string, filename: string)

  /** The table's keys, in the order the language selector lists them. */
  const LanguageKeys: seq<string> := ["cpp", "java", "python"]

  const Languages: map<string, Profile> := map[
    "cpp" := Profile("C++", "cpp", "solution.cpp"),
    "java" := Profile("Java", "java", "Solution.java"),
    "python" := Profile("Python", "python", "solution.py")]

  /** The font-size selector's option values. */
  const FontSizes: seq<string> := ["12px", "14px", "16px", "18px", "20px"]

  /** The table holds exactly the three listed languages; each Monaco
      language id is the key itself, and each has its own file name. */
  lemma LanguageTable()
    ensures Languages.Keys == {"cpp", "java", "python"}
    ensures forall k :: k in LanguageKeys <==> k in Languages
    ensures forall k :: k in Languages ==> Languages[k].monacoLang == k
    ensures Languages["cpp"].filename == "solution.cpp"
    ensures Languages["java"].filename == "Solution.java"
    ensures Languages["python"].filename == "solution.py"
  {
  }

  /** Assigning `v` to a `<select>`'s `value`: the option with that value is
      selected, and with no such option nothing is and the value reads `""`. */
  function SelectValue(options: seq<string>, v: string): (r: string)
    ensures v in options ==> r == v
    ensures v !in options ==> r == ""
    ensures r in options || r == ""
    ensures r == v <==> v in options || v == ""
  {
    if v in options then v else ""
  }

  /** The two selectors whose values drive the editor. */
  datatype Selectors = Selectors(language: string, fontSize: string)

  /** The selectors as the script creates them: the first language and
      `16px`. */
  const InitialSelectors := Selectors("cpp", "16px")

  /** `true` in JavaScript's sense for a stored string: present and
      non-empty. */
  predicate Truthy(v: Option<string>) {
    v.Some? && v.value != ""
  }

  /** The stored-preferences callback: restore each selector when a value is
      stored, ask for the language's templates, then tell the editor the
      language and font. A stored language that is not an option leaves the
      selector empty, and the table lookup then throws before anything is
      posted. */
  function LoadPrefs(sel: Selectors, storedLanguage: Option<string>, storedFont: Option<string>): (r: (Selectors, seq<Effect>))
    ensures r.0.language == (if Truthy(storedLanguage) then SelectValue(LanguageKeys, storedLanguage.value) else sel.language)
    ensures r.0.fontSize == (if Truthy(storedFont) then SelectValue(FontSizes, storedFont.value) else sel.fontSize)
    ensures |r.1| > 0 && r.1[0] == RequestTemplates(r.0.language)
    ensures r.0.language in Languages ==>
      r.1 == [RequestTemplates(r.0.language),
              Post(SetLangMsg(Languages[r.0.language].monacoLang)),
              Post(SetFontMsg(ParseInt(r.0.fontSize)))]
    ensures r.0.language !in Languages ==> r.1 == [RequestTemplates(r.0.language)]
  {
    var language := if Truthy(storedLanguage) then SelectValue(LanguageKeys, storedLanguage.value) else sel.language;
    var fontSize := if Truthy(storedFont) then SelectValue(FontSizes, storedFont.value) else sel.fontSize;
    var ask := [RequestTemplates(language)];
    if language in Languages then
      (Selectors(language, fontSize),
       ask + [Post(SetLangMsg(Languages[language].monacoLang)), Post(SetFontMsg(ParseInt(fontSize)))])
    else (Selectors(language, fontSize), ask)
  }

  /** With nothing stored the editor is told `cpp` and 16. */
  lemma LoadPrefsDefaults()
    ensures LoadPrefs(InitialSelectors, None, None).1 ==
      [RequestTemplates("cpp"), Post(SetLangMsg("cpp")), Post(SetFontMsg(Int(16)))]
  {
    PixelOption('1', '6', InitialSelectors.fontSize);
  }

  /** The digits of `/task\/(\d+)/` if it matches at index `i`. */
  function TaskAt(href: string, i: nat): (r: Option<string>)
    ensures r.Some? ==>
      && |r.value| > 0 && AllDigits(r.value)
      && OccursAt(href, i, "task/" + r.value)
      && (i + 5 + |r.value| == |href| || !IsDigit(href[i + 5 + |r.value|]))
  {
    if i + 5 <= |href| && href[i..i + 5] == "task/" then
      var n := SpanWhile(href, i + 5, IsDigit);
      if n == 0 then None
      else
        var d := href[i + 5..i + 5 + n];
        assert AllDigits(d) by {
          assert forall k :: 0 <= k < |d| ==> d[k] == href[i + 5 + k];
        }
        assert href[i..i + 5 + n] == "task/" + d;
        Some(d)
    else None
  }

  /** The problem id: the digits captured by the leftmost match of
      `/task\/(\d+)/` in the URL; `None` where the source's `[1]` on a
      failed match throws. */
  function ProblemId(href: string): (r: Option<string>)
    ensures r.None? <==> forall i :: 0 <= i <= |href| ==> TaskAt(href, i).None?
    ensures r.Some? ==>
      exists i :: 0 <= i <= |href| && TaskAt(href, i) == r &&
        forall j :: 0 <= j < i ==> TaskAt(href, j).None?
  {
    var at := (i: nat) => TaskAt(href, i);
    assert forall i: nat :: at(i) == TaskAt(href, i);
    match Scan.FirstMatch(at, 0, |href|)
    case Some(found) => Some(found.1)
    case None => None
  }

  /** The storage key under which the problem's code is auto-saved. */
  function SavedCodeKey(href: string): (r: Option<string>)
    ensures r.None? <==> ProblemId(href).None?
    ensures r.Some? ==> r.value == "savedCode-" + ProblemId(href).value
  {
    match ProblemId(href)
    case Some(id) => Some("savedCode-" + id)
    case None => None
  }

  /** A problem URL `p + "task/" + id + rest` in which nothing before `p`'s
      end matches yields the key `savedCode-<id>`. */
  lemma SavedCodeKeyOfTaskUrl(p: string, id: string, rest: string)
    requires |id| > 0 && AllDigits(id)
    requires rest == [] || !IsDigit(rest[0])
    requires forall i :: 0 <= i < |p| ==> TaskAt(p + "task/" + id + rest, i).None?
    ensures SavedCodeKey(p + "task/" + id + rest) == Some("savedCode-" + id)
  {
    var href := p + "task/" + id + rest;
    assert href[|p|..] == "task/" + (id + rest);
    TaskAtDigits(href, |p|, id, rest);
    var at := (i: nat) => TaskAt(href, i);
    Scan.FirstMatchAt(at, 0, |href|, |p|);
  }

  /** `task/` followed by a maximal digit string at index `i` captures that
      digit string. */
  lemma TaskAtDigits(href: string, i: nat, id: string, rest: string)
    requires |id| > 0 && AllDigits(id)
    requires rest == [] || !IsDigit(rest[0])
    requires i <= |href| && href[i..] == "task/" + (id + rest)
    ensures TaskAt(href, i) == Some(id)
  {
    assert href[i..i + 5] == href[i..][..5];
    assert href[i + 5..] == id + rest;
    DigitsAhead(href, i + 5, id, rest);
  }

  /** A digit string at the front of `s[a..]`, followed by a non-digit or
      the end, is the whole run of digits from `a`. */
  lemma DigitsAhead(s: string, a: nat, d: string, rest: string)
    requires AllDigits(d) && (rest == [] || !IsDigit(rest[0]))
    requires a <= |s| && s[a..] == d + rest
    ensures a + |d| <= |s| && SpanWhile(s, a, IsDigit) == |d| && s[a..a + |d|] == d
  {
    assert forall k :: a <= k < a + |d| ==> s[k] == s[a..][k - a];
    if a + |d| < |s| {
      assert s[a + |d|] == s[a..][|d|];
    }
    SpanWhileUnique(s, a, IsDigit, |d|);
    assert s[a..a + |d|] == s[a..][..|d|];
  }

  /** No match at all: the key cannot be formed. */
  lemma NoTaskNoKey(href: string)
    requires forall i :: 0 <= i <= |href| ==> !OccursAt(href, i, "task/")
    ensures SavedCodeKey(href).None?
  {
    forall i | 0 <= i <= |href|
      ensures TaskAt(href, i).None?
    {
      assert !OccursAt(href, i, "task/");
    }
  }

  /** One stored template as the options page keeps it. */
  datatype Template = Template(name: string, code: string)

  /** One `<option>`: its visible text and its value. */
  datatype Choice = Choice(text: string, value: string)

  const Placeholder := Choice("Select a template", "")

  /** One option per template, in order, valued by the template's code. */
  function TemplateChoices(ts: seq<Template>): (cs: seq<Choice>)
    ensures |cs| == |ts|
    ensures forall i :: 0 <= i < |ts| ==> cs[i] == Choice(ts[i].name, ts[i].code)
  {
    if |ts| == 0 then [] else [Choice(ts[0].name, ts[0].code)] + TemplateChoices(ts[1..])
  }

  /** `updateTemplateSelector`: the placeholder, then the templates. */
  function UpdateTemplateSelector(ts: seq<Template>): (cs: seq<Choice>)
    ensures |cs| == |ts| + 1 && cs[0] == Placeholder
    ensures forall i :: 0 <= i < |ts| ==> cs[i + 1].text == ts[i].name && cs[i + 1].value == ts[i].code
  {
    [Placeholder] + TemplateChoices(ts)
  }

  /** Reading the templates back off the options (all but the placeholder). */
  function ChoicesToTemplates(cs: seq<Choice>): (ts: seq<Template>)
    ensures |ts| == |cs|
  {
    if |cs| == 0 then [] else [Template(cs[0].text, cs[0].value)] + ChoicesToTemplates(cs[1..])
  }

  /** The options lose nothing: the templates can be read back from them,
      in their original order. */
  lemma {:induction false} TemplateChoicesRoundTrip(ts: seq<Template>)
    ensures ChoicesToTemplates(UpdateTemplateSelector(ts)[1..]) == ts
  {
    assert UpdateTemplateSelector(ts)[1..] == TemplateChoices(ts);
    TemplateChoicesInverse(ts);
  }

  lemma {:induction false} TemplateChoicesInverse(ts: seq<Template>)
    ensures ChoicesToTemplates(TemplateChoices(ts)) == ts
    decreases |ts|
  {
    if |ts| > 0 {
      var cs := TemplateChoices(ts);
      assert cs[1..] == TemplateChoices(ts[1..]);
      TemplateChoicesInverse(ts[1..]);
      assert ts == [ts[0]] + ts[1..];
    }
  }

  /** The runtime's answer to `get-templates`: `None` when there is no
      response or it has no `templates` field. */
  function OnTemplates(current: seq<Choice>, response: Option<seq<Template>>): (cs: seq<Choice>)
    ensures response.None? ==> cs == current
    ensures response.Some? ==> cs == UpdateTemplateSelector(response.value)
  {
    match response
    case Some(ts) => UpdateTemplateSelector(ts)
    case None => current
  }

  /** Choosing a template option inserts its code into the editor, unless
      the value is empty. */
  function OnTemplateChange(value: string): (effects: seq<Effect>)
    ensures value == "" <==> effects == []
    ensures value != "" ==> effects == [Post(WithCode(InsertCode, value))]
  {
    if value != "" then [Post(WithCode(InsertCode, value))] else []
  }

  /** Over freshly built options: the placeholder, and any template whose
      code is empty, do nothing; any other template inserts exactly its code. */
  lemma ChooseTemplate(ts: seq<Template>, k: nat)
    requires k < |ts| + 1
    ensures k == 0 ==> OnTemplateChange(UpdateTemplateSelector(ts)[k].value) == []
    ensures k > 0 ==>
      OnTemplateChange(UpdateTemplateSelector(ts)[k].value) ==
      (if ts[k - 1].code == "" then [] else [Post(WithCode(InsertCode, ts[k - 1].code))])
  {
  }

  /** The language selector's `change` listener. An option outside the
      table (impossible for the options the script creates) would make the
      lookup throw before anything happens. */
  function OnLanguageChange(sel: Selectors, newLanguage: string): (r: (Selectors, seq<Effect>))
    ensures r.0 == sel.(language := newLanguage)
    ensures newLanguage in Languages ==>
      r.1 == [Post(SetLangMsg(Languages[newLanguage].monacoLang)),
              RequestTemplates(newLanguage),
              SetItem("language", newLanguage)]
    ensures newLanguage !in Languages ==> r.1 == []
  {
    var sel' := sel.(language := newLanguage);
    if newLanguage in Languages then
      (sel', [Post(SetLangMsg(Languages[newLanguage].monacoLang)),
              RequestTemplates(sel'.language),
              SetItem("language", newLanguage)])
    else (sel', [])
  }

  /** The font selector's `change` listener: the editor gets the numeric
      prefix, the storage the option text. */
  function OnFontChange(sel: Selectors, newFontSize: string): (r: (Selectors, seq<Effect>))
    ensures r.0 == sel.(fontSize := newFontSize)
    ensures r.1 == [Post(SetFontMsg(ParseInt(newFontSize))), SetItem("fontSize", newFontSize)]
  {
    (sel.(fontSize := newFontSize),
     [Post(SetFontMsg(ParseInt(newFontSize))), SetItem("fontSize", newFontSize)])
  }

  /** Every option of the font selector reaches the editor as its number of
      pixels: 12, 14, 16, 18 and 20. */
  lemma FontSizesInPixels()
    ensures ParseInt(FontSizes[0]) == Int(12) && ParseInt(FontSizes[1]) == Int(14)
    ensures ParseInt(FontSizes[2]) == Int(16) && ParseInt(FontSizes[3]) == Int(18)
    ensures ParseInt(FontSizes[4]) == Int(20)
  {
    PixelOption('1', '2', FontSizes[0]);
    PixelOption('1', '4', FontSizes[1]);
    PixelOption('1', '6', FontSizes[2]);
    PixelOption('1', '8', FontSizes[3]);
    PixelOption('2', '0', FontSizes[4]);
  }

  /** A two-digit pixel size `"<t><u>px"` reads as `10t + u`. */
  lemma PixelOption(t: char, u: char, text: string)
    requires IsDigit(t) && IsDigit(u)
    requires |text| == 4 && text[0] == t && text[1] == u && text[2] == 'p' && text[3] == 'x'
    ensures ParseInt(text) == Int(10 * DigitValue(t) + DigitValue(u))
  {
    var d := [t, u];
    assert d[..1] == [t] && [t][..0] == [];
    assert Decimal([t]) == ValueIn([t][..0], false) * 10 + DigitValue(t);
    assert Decimal(d) == Decimal([t]) * 10 + DigitValue(u);
    assert text == d + "px";
    ParseIntDecimalPrefix(d, "px");
  }

  /** The submit button asks the editor for its code. */
  function OnSubmitClick(): (effects: seq<Effect>)
    ensures effects == [Post(Bare(GetCode))]
  {
    [Post(Bare(GetCode))]
  }

  /** The auto-save timer asks the editor for its code to save. */
  function AutoSaveTick(): (effects: seq<Effect>)
    ensures effects == [Post(Bare(GetCodeForSave))]
  {
    [Post(Bare(GetCodeForSave))]
  }

  /** The saved-code callback: a stored, non-empty text is inserted into the
      editor. */
  function RestoreSaved(stored: Option<string>): (effects: seq<Effect>)
    ensures Truthy(stored) <==> effects != []
    ensures Truthy(stored) ==> effects == [Post(WithCode(InsertCode, stored.value))]
  {
    if Truthy(stored) then [Post(WithCode(InsertCode, stored.value))] else []
  }

  /** What the content script keeps once it has a problem id: the selectors,
      the template options, the save key and what it found of the site's
      hidden submit form. */
  datatype ContentState = ContentState(
    sel: Selectors,
    templates: seq<Choice>,
    savedCodeKey: string,
    hasForm: bool,
    hasFileInput: bool)

  /** The state after start-up; `None` when the URL has no problem id, in
      which case the script throws before installing its listeners. */
  function Setup(href: string, hasForm: bool, hasFileInput: bool): (r: Option<ContentState>)
    ensures r.None? <==> SavedCodeKey(href).None?
    ensures r.Some? ==>
      && r.value.savedCodeKey == SavedCodeKey(href).value
      && r.value.sel == InitialSelectors && r.value.templates == [Placeholder]
      && r.value.hasForm == hasForm && r.value.hasFileInput == (hasForm && hasFileInput)
  {
    match SavedCodeKey(href)
    case Some(key) => Some(ContentState(InitialSelectors, [Placeholder], key, hasForm, hasForm && hasFileInput))
    case None => None
  }

  /** Packaging the editor's code for the site's form: the file goes into
      the file input when there is one, and the form is submitted either way. */
  function SubmitEffects(p: ContentState, code: string): (effects: seq<Effect>)
    requires p.sel.language in Languages
    ensures |effects| > 0 && effects[|effects| - 1] == Submit
    ensures p.hasFileInput <==> AttachFile(File(Languages[p.sel.language].filename, code)) in effects
    ensures |effects| == (if p.hasFileInput then 2 else 1)
  {
    var file := File(Languages[p.sel.language].filename, code);
    (if p.hasFileInput then [AttachFile(file)] else []) + [Submit]
  }

  /** The content script's `message` listener. */
  function HandleOuter(p: ContentState, e: Event): (effects: seq<Effect>)
    ensures !e.sameWindow ==> effects == []
    ensures e.data.kind != Some(ResponseCode) && e.data.kind != Some(ResponseCodeForSave) ==> effects == []
    ensures e.sameWindow && e.data.kind == Some(ResponseCode) && (!p.hasForm || p.sel.language !in Languages) ==>
      effects == []
    ensures forall x :: x in effects ==> !x.Post?
  {
    if !e.sameWindow then []
    else if e.data.kind == Some(ResponseCode) then
      if !p.hasForm || p.sel.language !in Languages then []
      else SubmitEffects(p, e.data.code)
    else if e.data.kind == Some(ResponseCodeForSave) then
      [SetItem(p.savedCodeKey, e.data.code)]
    else []
  }

  /** `response-code-for-save` writes exactly the code under the save key. */
  lemma SaveResponseStores(p: ContentState, code: string)
    ensures HandleOuter(p, Event(true, WithCode(ResponseCodeForSave, code))) == [SetItem(p.savedCodeKey, code)]
  {
  }

  /** `response-code` without a form does nothing; with one it submits, with
      the code in a file named after the selected language when the form has
      a file input. */
  lemma CodeResponseSubmits(p: ContentState, code: string)
    requires p.sel.language in Languages
    ensures var effects := HandleOuter(p, Event(true, WithCode(ResponseCode, code)));
      && (!p.hasForm ==> effects == [])
      && (p.hasForm && p.hasFileInput ==>
            effects == [AttachFile(File(Languages[p.sel.language].filename, code)), Submit])
      && (p.hasForm && !p.hasFileInput ==> effects == [Submit])
  {
  }

  /** `response-code` acts exactly when the site's form exists and the
      selected language is in the table: the form check returns first, and
      the file-name lookup throws for any other language. */
  lemma CodeResponseActsIff(p: ContentState, code: string)
    ensures HandleOuter(p, Event(true, WithCode(ResponseCode, code))) != [] <==>
      p.hasForm && p.sel.language in Languages
  {
  }
}

=== FILE: wrappers.dfy ===
/** The optional value used throughout the model for JavaScript's "absent"
    (`undefined`, `null`, a failed `match`). */
module Wrappers {

  datatype Option<+T> = None | Some(value: T)
}
